=== FILE: README.md ===
# IDCC.Cache in Dafny

IDCC.Cache is an in-process distributed cache for .NET services that run as several pods.
Each process is one *peer*. A key lives on the `ReplicationFactor` peers that rank highest for
it, where a peer's rank is the Murmur3-based combined hash of its id and the key. Reads and
writes fan out to those replicas and succeed when at least `MinReplicationSuccesses` of them
do. A read returns the value with the latest stamp, where a remote reply is stamped on receipt. Peers are found by listing the pods that share this
pod's labels.

This project models that core as immutable data and pure functions, and proves properties of
it:

- **Murmur3 and the keys-distribution algorithm** (`murmur3.dfy`, `keyhash.dfy`).
  - MurmurHash3 x86_32 over UTF-16 code units, keeping the low byte of each unit.
  - The source's loop is a method proved equal to a block-structured definition.
  - The test vectors are proved.
  - The peer and key hashes with their two seeds, and the 32-bit combined rank.
- **Peers** (`peers.dfy`, `localpeer.dfy`, `remotepeer.dfy`, `peerfactory.dfy`, `protocol.dfy`,
  `peerservice.dfy`).
  - Peer descriptions, the `CacheValue` record and its size estimate, and the errors.
  - The local peer over the process-wide store.
  - The remote peer over an abstract transport, and the server-side handler it talks to.
  - The factory's kind checks and hash derivation.
- **The registry** (`registry.dfy`, with `stablesort.dfy` for the stable descending sort).
  - Replica choice for a key.
  - Self discovery and peer removal.
  - Peer arrival with its migration sweep. The sweep is given both as written and ranked by
    peer hash (see Findings).
- **The cache facade** (`cache.dfy`).
  - Get, set and remove as decisions over per-replica task outcomes taken in an arbitrary
    completion order.
  - The quorum count, the freshest-value choice, the fault aggregate, and the diagnostic
    `GetInfo`.
- **Kubernetes discovery** (`discovery.dfy`).
  - The start step that resets the known peers to this pod.
  - One pass of the watch loop: new running pods recorded, vanished remote pods forgotten,
    and the registry notified.
- **A worked counterexample for the sweep** (`sweepfinding.dfy`).

Identifiers and keys are `Text`, a sequence of 16-bit code units like a .NET `string`. Clocks
are integer parameters. What the transport did with each call, the order tasks complete in,
and whether a channel connected are all inputs. The registry and factory take the hashing
algorithm as a value (`KeyHashing.Algorithm`). `KeyHashing.Murmur` is the one the cache is
wired with.

## Model

| member | source | states |
|---|---|---|
| Murmur3.ComputeIterative | IDCC.Cache/Hashing/Murmur3.cs:5-44 | The source's single-index loop, with its in-place packing and 0-3 unit tail switch, computes the block-structured hash: whole little-endian blocks, then tail, length and finaliser |
| Murmur3.NextBlock | IDCC.Cache/Hashing/Murmur3.cs:15-24 | One more whole 4-unit block is exactly one more body round (scramble, xor, rotate 13, times 5 plus 0xe6546b64) applied to the hash so far |
| Murmur3.EmptyInput | IDCC.Cache/Hashing/Murmur3.cs:7-9 | The empty input hashes to 0 under every seed |
| Murmur3.LowBytesOnly | IDCC.Cache/Hashing/Murmur3.cs:17-30 | Two inputs of equal length whose code units agree in their low byte hash equally under every seed |
| Murmur3.BodyOfAppend | IDCC.Cache/Hashing/Murmur3.cs:13-24 | Whole blocks are consumed left to right: hashing blocks `a` then `b` is hashing `b` from the state `a` left |
| Murmur3.WholeBlocksSkipTail | IDCC.Cache/Hashing/Murmur3.cs:26-33 | For a length that is a multiple of 4 the tail word is 0, its scramble is 0, and the tail step leaves the body's hash unchanged |
| Murmur3.TailWordOfAppend | IDCC.Cache/Hashing/Murmur3.cs:26-32 | The tail word reads only the 0-3 units after the last whole block |
| Murmur3.Finalise | IDCC.Cache/Hashing/Murmur3.cs:33-41 | After the body, the hash is the scrambled tail xored in without a body round, then the length xored in, then the fmix32 chain |
| Murmur3.SingleUnit | IDCC.Cache/Hashing/Murmur3.cs:26-41 | A one-unit input has no whole block: its hash is the seed finished with that unit's low byte as tail and length 1 |
| Murmur3.TestVector | IDCC.Cache.Tests/Mummur3Tests.cs:12 | "test" under seed 0x9747b28c hashes to 0x704b81dc |
| Murmur3.HelloWorldVector | IDCC.Cache.Tests/Mummur3Tests.cs:13 | "Hello, world!" under seed 0x9747b28c hashes to 0x24884CBA |
| Murmur3.QuickBrownFoxVector | IDCC.Cache.Tests/Mummur3Tests.cs:14 | "The quick brown fox jumps over the lazy dog" under seed 0x9747b28c hashes to 0x2FA826CD |
| KeyHashing.CombinedHash | IDCC.Cache/Hashing/MurmurKeysDistributionHashAlgorithm.cs:12 | The combined rank is always below 2^32: the 64-bit product never overflows and the mask keeps its low word |
| KeyHashing.SeedsDiffer | IDCC.Cache/Hashing/MurmurKeysDistributionHashAlgorithm.cs:5-6 | The peer seed (1818163) and the key seed (6722263) differ |
| KeyHashing.CombinedHashCommutes | IDCC.Cache/Hashing/MurmurKeysDistributionHashAlgorithm.cs:12 | Swapping the peer hash and the key hash leaves the rank unchanged |
| KeyHashing.EmptyKeyTies | IDCC.Cache/Hashing/MurmurKeysDistributionHashAlgorithm.cs:10-12 | The empty key hashes to 0, so every peer ranks 0 for it and all peers tie |
| KeyHashing.EmptyIdRanksZero | IDCC.Cache/Hashing/MurmurKeysDistributionHashAlgorithm.cs:8-12 | A peer with an empty id hashes to 0 and ranks 0 for every key |
| KeyHashing.OneUnitHashes | IDCC.Cache/Hashing/MurmurKeysDistributionHashAlgorithm.cs:8-10 | The peer hashes of "a", "b", "c", "g" and the key hash of "k" under the two seeds |
| Peers.GetSize | IDCC.Cache/Peers/IPeer.cs:25-32 | The estimate always exists and exceeds the value length: length + 32 when `IntPtr.Size` is 8, length + 20 when it is 4 |
| Peers.GetSizeGrowsByOne | IDCC.Cache/Peers/IPeer.cs:28-31 | One more byte of value is exactly one more byte of estimate |
| LocalPeer.Create | IDCC.Cache/Peers/LocalPeer.cs:9-21 | The peer keeps the id and hash it was built with and is always of the local kind |
| LocalPeer.Get | IDCC.Cache/Peers/LocalPeer.cs:23-28 | A value comes back exactly when the key was stored through a local peer, and it is the stored record |
| LocalPeer.Set | IDCC.Cache/Peers/LocalPeer.cs:30-44 | The key then holds the bytes stamped with the given clock reading; every other entry of the shared store is unchanged |
| LocalPeer.Remove | IDCC.Cache/Peers/LocalPeer.cs:46-51 | The key is gone afterwards, every other entry is unchanged, and removing an absent key changes nothing |
| LocalPeer.CachedKeys | IDCC.Cache/Peers/LocalPeer.cs:53-58 | The listing holds exactly the keys stored through a local peer; entries other components put in the store are filtered out |
| LocalPeer.Dispose | IDCC.Cache/Peers/LocalPeer.cs:60-69 | Disposing leaves the store as it was |
| LocalPeer.GetAbsent | IDCC.Cache.Tests/LocalPeerTests.cs:26-33 | A key never stored reads as absent |
| LocalPeer.GetAfterSet | IDCC.Cache.Tests/LocalPeerTests.cs:36-48 | Set then get returns the same bytes, stamped with the time of the set |
| LocalPeer.GetAfterSetOther | IDCC.Cache/Peers/LocalPeer.cs:30-44 | A set under one key is invisible under every other key |
| LocalPeer.GetAfterRemove | IDCC.Cache.Tests/LocalPeerTests.cs:51-63 | After a remove the key reads as absent |
| LocalPeer.RemoveIdempotent | IDCC.Cache/Peers/LocalPeer.cs:46-51 | Removing twice is removing once |
| LocalPeer.CachedKeysAfterSet | IDCC.Cache.Tests/LocalPeerTests.cs:66-81 | A set adds its key to the listing and nothing else |
| LocalPeer.CachedKeysAfterRemove | IDCC.Cache/Peers/LocalPeer.cs:53-58 | A remove takes its key out of the listing and nothing else |
| LocalPeer.OtherEntriesUntouched | IDCC.Cache/Peers/LocalPeer.cs:71 | Because local keys have their own key type, sets and removes never add or drop another component's entry |
| PeerFactory.CreateLocal | IDCC.Cache/Peers/PeerFactory.cs:14-23 | Fails with the argument error naming `peerDescription` exactly when the description is not local; otherwise the peer has the description's id and the hash that id determines |
| PeerFactory.CreateRemote | IDCC.Cache/Peers/PeerFactory.cs:25-39 | A wrong kind is rejected before any connect, whatever the connect would do; a failed connect propagates its error; otherwise a remote peer with the description's id and that id's hash |
| PeerFactory.CreatedPeersAgreeOnHash | IDCC.Cache/Peers/PeerFactory.cs:19-31 | Two descriptions with one id build peers with one id and one hash, whichever kind |
| RemotePeer.Create | IDCC.Cache/Peers/RemotePeer.cs:16-20 | The peer keeps its constructor's id and hash and is always of the remote kind |
| RemotePeer.RequestFor | IDCC.Cache/Peers/RemotePeer.cs:52-57 | Every request carries the operation's key; only a set carries a value, and it is the bytes given |
| RemotePeer.Get | IDCC.Cache/Peers/RemotePeer.cs:22-45 | Fails exactly when the call threw, with a cache error wrapping the cause; a missing reply or unset value is a miss; a value is stamped with the local receipt time, not the server's |
| RemotePeer.Set | IDCC.Cache/Peers/RemotePeer.cs:47-69 | Fails exactly when the call threw, with a cache error naming the set and wrapping the cause |
| RemotePeer.Remove | IDCC.Cache/Peers/RemotePeer.cs:71-89 | Fails exactly when the call threw, with a cache error naming the remove and wrapping the cause |
| RemotePeer.Dispose | IDCC.Cache/Peers/RemotePeer.cs:91-107 | Disposing succeeds whatever closing the channel threw |
| PeerService.Handle | IDCC.Cache/Peers/Service/PeerService.cs:14-58 | Without a local peer a get is an empty reply, and a set or remove leaves the store alone yet replies success; with one, a get reads the store without changing it and a set or remove goes to the local peer |
| PeerService.RemoteGetThroughService | IDCC.Cache/Peers/Service/PeerService.cs:26-33 | End to end, a remote get returns the server's bytes restamped with the caller's receipt time, and a miss when the server has no local peer |
| PeerService.RemoteSetThroughService | IDCC.Cache/Peers/Service/PeerService.cs:36-46 | End to end, a remote set leaves the bytes readable on a server with a local peer, stamped by the server clock; the caller sees success either way |
| PeerService.RemoteRemoveThroughService | IDCC.Cache/Peers/Service/PeerService.cs:48-58 | End to end, a remote remove leaves the key absent on a server with a local peer; the caller sees success either way |
| PeersRegistry.EmptyIsValid | IDCC.Cache/Peers/PeersRegistry.cs:15-19 | The initial registry, with no peers and no local peer, satisfies the registry invariant |
| PeersRegistry.PeersForKey | IDCC.Cache/Peers/PeersRegistry.cs:21-34 | An empty snapshot is the "No peers available" error; otherwise min(factor, peers) replicas (none for a factor of 0 or less), drawn from the snapshot, in descending rank |
| PeersRegistry.PeersForKeyTopRanked | IDCC.Cache/Peers/PeersRegistry.cs:27-31 | Every chosen replica ranks at least as high as every peer left out |
| PeersRegistry.PeersForKeyKeepsTieOrder | IDCC.Cache.Tests/PeersRegistryTests.cs:99-127 | Among equal ranks the replicas keep their snapshot order: the chosen ties are a prefix of the snapshot's ties |
| PeersRegistry.OnSelfDiscovered | IDCC.Cache/Peers/PeersRegistry.cs:36-50 | A non-local description is rejected; otherwise the old local peer's entry leaves, the other peers keep their snapshot order, and the new local peer is appended at the end |
| PeersRegistry.SelfDiscoveredKeepsValid | IDCC.Cache.Tests/PeersRegistryTests.cs:36-48 | Self discovery keeps the invariant, keeps every remote peer's count, and leaves the new peer as the only local entry |
| PeersRegistry.KeptMeansReplica | IDCC.Cache/Peers/PeersRegistry.cs:21-34 | Ranked by peer hash, the sweep keeps a key exactly when the local peer is one of that key's replicas |
| PeersRegistry.AsWrittenIgnoresKey | IDCC.Cache/Peers/PeersRegistry.cs:71-76 | Ranked as written, the sweep keeps a key exactly when the local peer is among the first `factor` candidates in list order, whatever the key |
| PeersRegistry.AsWrittenAllOrNothing | IDCC.Cache/Peers/PeersRegistry.cs:64-83 | Ranked as written, the sweep keeps either every key or none |
| PeersRegistry.KeptUnlessOutranked | IDCC.Cache/Peers/PeersRegistry.cs:62-76 | Ranked by peer hash, arrivals that do not outrank the local peer for a key do not change whether it keeps that key |
| PeersRegistry.Sweep | IDCC.Cache/Peers/PeersRegistry.cs:64-84 | After a sweep a local key remains exactly when it is kept; other components' entries and every remaining value are untouched |
| PeersRegistry.SweepKeys | IDCC.Cache/Peers/PeersRegistry.cs:69-83 | Walking the key listing and removing each key not kept yields the swept store, whatever order the listing has |
| PeersRegistry.CreateAll | IDCC.Cache/Peers/PeersRegistry.cs:54-60 | Succeeds exactly when every creation does, with the peers in arrival order; otherwise the error is the first failure in that order |
| PeersRegistry.OnPeersDiscovered | IDCC.Cache/Peers/PeersRegistry.cs:52-87 | A failed creation changes neither snapshot nor store, and the error raised is that of the first failing creation; otherwise the new peers are appended without deduplication, the local peer stays, and with a local peer the store is swept against the new snapshot |
| PeersRegistry.DiscoveredKeepsValid | IDCC.Cache.Tests/PeersRegistryTests.cs:51-66 | Peer arrival keeps the registry invariant |
| PeersRegistry.DiscoveredAsWrittenAllOrNothing | IDCC.Cache/Peers/PeersRegistry.cs:64-84 | As written, one arrival event either keeps two stored keys both or evicts both |
| PeersRegistry.DiscoveredKeepsUnlessOutranked | IDCC.Cache/Peers/PeersRegistry.cs:64-84 | Ranked by peer hash, a key the local peer replicates survives an arrival that does not outrank it |
| PeersRegistry.IndexOfId | IDCC.Cache/Peers/PeersRegistry.cs:96 | The index found is the first peer with that id, and none means no peer has it |
| PeersRegistry.DropPeers | IDCC.Cache/Peers/PeersRegistry.cs:94-102 | For each id, the peers dropped are the first ones with that id in snapshot order, as many as there are descriptions with that id (or all of them if fewer), and the rest survive in order; a snapshot peer survives exactly when the earlier peers with its id already number at least the descriptions with that id, and the survivors are those peers in snapshot order; survivors and dropped peers together are the snapshot; every dropped peer has a removed id |
| PeersRegistry.SingleDescriptionDropsFirst | IDCC.Cache/Peers/PeersRegistry.cs:94-102 | A single removed description drops exactly the first snapshot peer with its id; every other peer survives in place |
| PeersRegistry.RepeatedIdDropsEarlier | IDCC.Cache/Peers/PeersRegistry.cs:94-102 | With an id listed twice around another peer and one description for it, the earlier copy is dropped and the later one stays after the other peer |
| PeersRegistry.OnPeersRemoved | IDCC.Cache/Peers/PeersRegistry.cs:89-107 | The local peer field is kept; for each id the first peers with that id, one per description carrying it, are handed over for disposal and the others survive; the new snapshot is exactly the surviving peers, each kept in its snapshot position relative to the others; peers with other ids keep their counts |
| PeersRegistry.RemovedKeepsValid | IDCC.Cache.Tests/PeersRegistryTests.cs:69-89 | Peer removal keeps the registry invariant |
| PeersRegistry.DroppedIdsGone | IDCC.Cache/Peers/PeersRegistry.cs:94-102 | With distinct ids in the snapshot, no survivor carries a removed id |
| PeersRegistry.RemovedDropsFirstMatch | IDCC.Cache/Peers/PeersRegistry.cs:94-102 | A removed description whose id is present drops the first peer with that id, so the event is never a no-op for a present id; that id's survivors are the rest of its peers in order |
| DistributedCache.CountSuccesses | IDCC.Cache/InternalDistributedCache.cs:42-47 | Counting successes in completion order gives the number of tasks that succeeded, whatever the order |
| DistributedCache.QuorumBounds | IDCC.Cache/InternalDistributedCache.cs:29 | A minimum of 0 or less is always met, and one above the replica count never is |
| DistributedCache.Faults | IDCC.Cache/InternalDistributedCache.cs:30-32 | The aggregate holds a wrapped fault exactly for each failed task; faults plus successes account for every task |
| DistributedCache.FaultsInTaskOrder | IDCC.Cache/InternalDistributedCache.cs:30-32 | The aggregate follows the task list, which is in replica order, not completion order: the faults of two runs of tasks are those of the first run followed by those of the second |
| DistributedCache.NoFaultsWhenAllSucceed | IDCC.Cache/InternalDistributedCache.cs:30-32 | When every task succeeds there is nothing to aggregate |
| DistributedCache.GetTask | IDCC.Cache/InternalDistributedCache.cs:14 | A local replica reads the store and never fails; a remote one maps its call |
| DistributedCache.Tally | IDCC.Cache/InternalDistributedCache.cs:16-27 | The read loop counts the successes, returns nothing exactly when no task hit, and otherwise keeps a hit with the latest stamp where every earlier-completed hit is strictly older |
| DistributedCache.FreshestStampIndependentOfOrder | IDCC.Cache/InternalDistributedCache.cs:22-24 | Whatever the completion order, the value kept carries the same, latest stamp |
| DistributedCache.FreshestUniqueWithoutTies | IDCC.Cache/InternalDistributedCache.cs:22-24 | When no two hits share a stamp, the completion order does not change which replica's value is returned |
| DistributedCache.Get | IDCC.Cache/InternalDistributedCache.cs:11-35 | An empty registry's error propagates; otherwise failure exactly when the quorum is missed, with the aggregate of faults; a miss exactly when no replica hit; else the bytes of the hit with the latest stamp, the first to complete winning a tie, where a remote hit carries its time of receipt |
| DistributedCache.ReceiptStampOutranksLocal | IDCC.Cache/Peers/RemotePeer.cs:28-33 | A remote hit is stamped on receipt and the server's stored time is dropped, so a remote reply received after a local value was stored always outranks it, however stale the remote copy |
| DistributedCache.SetWrites | IDCC.Cache/InternalDistributedCache.cs:40 | Local replicas write when their task starts: with one among the replicas the key holds the value stamped by one of their clocks; other entries are untouched |
| DistributedCache.Set | IDCC.Cache/InternalDistributedCache.cs:37-54 | An empty registry's error propagates with nothing written; otherwise failure exactly when the quorum is missed, with the aggregate of faults, and the local writes stand either way |
| DistributedCache.RemoveWrites | IDCC.Cache/InternalDistributedCache.cs:59 | With a local replica the key is dropped from the store; otherwise the store is untouched |
| DistributedCache.Remove | IDCC.Cache/InternalDistributedCache.cs:56-73 | As set, with the local drop standing either way; the aggregate carries the get operation's message |
| DistributedCache.LocalReplicasMeetQuorum | IDCC.Cache/InternalDistributedCache.cs:20-29 | Replicas that are all local meet any minimum up to their count for every operation, whatever the transport does |
| DistributedCache.GetInfo | IDCC.Cache/InternalDistributedCache.cs:75-82 | The local peer's id (empty without one), every snapshot id in order, and the local key count (0 without a local peer) |
| DistributedCache.InfoCountsKeys | IDCC.Cache/InternalDistributedCache.cs:81 | The key count follows the store: setting a new key adds one, and removing it again restores the count |
| KubernetesDiscovery.Describe | IDCC.Cache/Peers/Discovery/KubernetesPeerDiscoveryStrategy.cs:153-163 | Building a description fails with a URI format error exactly when the pod has no IP; otherwise the id is the pod uid and the endpoint is the pod IP on the configured port over https or http as configured |
| KubernetesDiscovery.Start | IDCC.Cache/Peers/Discovery/KubernetesPeerDiscoveryStrategy.cs:41-50 | Start reports this pod's local description and resets the known peers to exactly that entry, whatever was there before; when this pod has no IP, start fails and the known peers stay as they were |
| KubernetesDiscovery.StartIsKeyed | IDCC.Cache/Peers/Discovery/KubernetesPeerDiscoveryStrategy.cs:46-47 | After a successful start every known entry is filed under its own id, and the self entry is local |
| KubernetesDiscovery.NewPods | IDCC.Cache/Peers/Discovery/KubernetesPeerDiscoveryStrategy.cs:87-99 | A pod is new exactly when it is listed, running, has an IP, is not this machine, and its uid is not known |
| KubernetesDiscovery.AddNewReportsNewPods | IDCC.Cache/Peers/Discovery/KubernetesPeerDiscoveryStrategy.cs:86-104 | The listing walk reports the remote descriptions of exactly the new pods, in listing order |
| KubernetesDiscovery.AddNewRecordsNewPods | IDCC.Cache/Peers/Discovery/KubernetesPeerDiscoveryStrategy.cs:101-103 | The walk files each new pod's remote description under its uid, keeps the old entries, and adds nothing else |
| KubernetesDiscovery.Gone | IDCC.Cache/Peers/Discovery/KubernetesPeerDiscoveryStrategy.cs:106-110 | The removed descriptions are exactly the known remote entries whose uid the listing lacks |
| KubernetesDiscovery.Forget | IDCC.Cache/Peers/Discovery/KubernetesPeerDiscoveryStrategy.cs:112-113 | Exactly the entries whose key is a removed description's id are dropped; the rest keep their descriptions |
| KubernetesDiscovery.Reconcile | IDCC.Cache/Peers/Discovery/KubernetesPeerDiscoveryStrategy.cs:84-113 | A listing with a repeated uid aborts the pass; otherwise the pass reports the descriptions of exactly the new pods |
| KubernetesDiscovery.RemovedAreGone | IDCC.Cache/Peers/Discovery/KubernetesPeerDiscoveryStrategy.cs:106-110 | A pass removes exactly the previously known remote peers whose pods are no longer listed; none it just added |
| KubernetesDiscovery.ReconcileKeepsKeyed | IDCC.Cache/Peers/Discovery/KubernetesPeerDiscoveryStrategy.cs:98-113 | A pass keeps entries filed under their ids and the local entry untouched, and leaves exactly the entries known or added that are still listed or local |
| KubernetesDiscovery.ListedKnownUntouched | IDCC.Cache/Peers/Discovery/KubernetesPeerDiscoveryStrategy.cs:90-108 | A known pod still listed is neither reported nor removed, whatever its phase or IP, and keeps its description |
| KubernetesDiscovery.ReconcileIdempotent | IDCC.Cache/Peers/Discovery/KubernetesPeerDiscoveryStrategy.cs:84-125 | A second pass over the same listing adds nothing, removes nothing and changes nothing |
| KubernetesDiscovery.SelfNeverAdded | IDCC.Cache/Peers/Discovery/KubernetesPeerDiscoveryStrategy.cs:90-92 | This machine's own pod is never reported as a new peer |
| KubernetesDiscovery.Notify | IDCC.Cache/Peers/Discovery/KubernetesPeerDiscoveryStrategy.cs:115-125 | At most two notices, each sent at most once: removals are told before discoveries, each only when non-empty, and a throwing removal notification stops the discovery one |
| KubernetesDiscovery.WatchStep | IDCC.Cache/Peers/Discovery/KubernetesPeerDiscoveryStrategy.cs:84-130 | A pass aborted by a repeated uid tells nothing and keeps the known peers |
| KubernetesDiscovery.LostNoticeNotRetried | IDCC.Cache/Peers/Discovery/KubernetesPeerDiscoveryStrategy.cs:127-130 | Because the known peers are updated before notifying, a lost notification is never retried: the next turn over the same listing tells nothing |
| SweepFinding.KeepsMigratedKey | IDCC.Cache/Peers/PeersRegistry.cs:71-76 | For any arrival that outranks the local peer with a factor of 1, the key moves to the newcomer, yet as written the local copy is kept, while ranking by peer hash evicts it |
| SweepFinding.AsWrittenKeepsMigratedKey | IDCC.Cache/Peers/PeersRegistry.cs:71-76 | Concretely: local peer "b" holding "k", remote "a" arrives and becomes the replica of "k", and the sweep as written still keeps "k" on "b" |
| SweepFinding.EvictsReplica | IDCC.Cache/Peers/PeersRegistry.cs:71-76 | For an arrival ranked below the local peer, which stays the key's replica, the sweep as written evicts the key, and ranking by peer hash keeps it |
| SweepFinding.AsWrittenEvictsReplica | IDCC.Cache/Peers/PeersRegistry.cs:71-76 | Concretely: snapshot ["c", local "a"] with "k" stored, "g" arrives, "a" is still the replica of "k", and the sweep as written evicts it |

## Left out

- The network, gRPC and protobuf plumbing. Channel creation and connect are an `Option<Error>` input. Each transport call is a `CallResult` input: a delivered reply, possibly absent, or a thrown error. Byte-string copying and timestamp conversion are not modelled.
- Concurrency. The volatile snapshot swap is one state assignment. `Task.WhenEach` becomes a completion order, an arbitrary permutation given as input. Cancellation is one more thrown error, and the outer cancellation of the await loops is not modelled.
- `MemoryCache` internals: eviction, size limits and entry priority. The store is a finite map, and `DateTime.UtcNow` is an integer clock parameter.
- `LocalPeer.CachedKeys`: it assumes the store is a `MemoryCache`. The source's branch that returns no keys for any other cache is not modelled. The listing is a set; its enumeration order is an input to `PeersRegistry.SweepKeys`.
- `PeersRegistry.CreateAll`: the arrivals are taken as already in completion order, so "first failure" means first to complete.
- `KubernetesDiscovery.Describe`: a present pod IP is taken to be a usable host. An empty IP string is treated as eligible and described, whereas in the source an empty host makes the URI builder throw at KubernetesPeerDiscoveryStrategy.cs:162, partway through a pass. Kubernetes reports a pod IP either as absent or as an address, so the model does not represent the empty case.
- `PeersRegistry.OnPeersDiscovered`: cancellation partway through the sweep is not modelled. The sweep either completes or, when a creation fails, never starts.
- `PeersRegistry.OnPeersDiscovered`: when a creation fails, the remote peers already created are dropped without being disposed, so in the source their channels stay open (PeersRegistry.cs:56-60). The model has no channel state, so this leak is not represented.
- `KubernetesDiscovery.Reconcile`: the removed peers form a set. The order of the removal list follows dictionary enumeration and is not modelled.
- `KubernetesDiscovery.WatchStep`: its own contract covers only the aborted pass. The completed pass is stated through `LostNoticeNotRetried` and the `Reconcile` lemmas.
- Listing pods, reading this pod, the label selector, the interval with jitter, `Task.Delay`, Stop, and disposing the discovery strategy are all left out. They are Kubernetes API I/O and timing.
- Logging and stopwatches: these have no behaviour the model needs.
- Hosting and dependency-injection wiring, the dummy discovery strategy, and the demo service are outside this model.
- Error values keep only their message, parameter name and inner errors. Stack traces are dropped, and so is the distinction between an `AggregateException` and the `Exception` a faulted task carries beyond the `TaskFault` wrapper.

## Findings

| source | as written | input that shows it | evidently intended | confidence | as-written member | corrected member |
|---|---|---|---|---|---|---|
| IDCC.Cache/Peers/PeersRegistry.cs:71-76 | The migration sweep sorts candidates by `ComputeCombinedHash(LocalPeer.Hash, keyHash)`, which is the same value for every candidate. So the sort keeps list order, and a key stays exactly when the local peer is among the first `ReplicationFactor` peers of the snapshot, whatever the key | Factor 1 and the Murmur algorithm. (1) Local peer "b" holds key "k" and remote "a" arrives. "a" becomes the replica of "k", yet "b" keeps "k". (2) Snapshot ["c", local "a"] holds "k" and "g" arrives. Local "a" is still the replica of "k", yet "k" is evicted | Rank each candidate by its own hash, as `GetPeersForKey` does (lines 27-30). A key then stays exactly when the local peer remains one of its replicas | high; not executed | PeersRegistry.AsWrittenIgnoresKey, SweepFinding.AsWrittenKeepsMigratedKey, SweepFinding.AsWrittenEvictsReplica | PeersRegistry.KeptMeansReplica, PeersRegistry.DiscoveredKeepsUnlessOutranked |

`PeersRegistry.OnPeersDiscovered` takes the ranking as a parameter. `AsWritten` models the source line by line, and `ByPeerHash` is the corrected definition. The lemmas that state the intended behaviour use the corrected one.

The remove operation of the cache facade reports its failure with the message "Failed to get value from peers" (IDCC.Cache/InternalDistributedCache.cs:70). This is most likely a copy of the get message. The model keeps the message as written (`DistributedCache.RemoveFailedMessage`), since nothing depends on it.

=== FILE: cache.dfy ===
/** The cache facade: each operation asks the registry for the key's replicas, runs the operation
    on every replica at once, counts the replicas that succeed as they complete, and throws an
    aggregate of the faults when fewer than the configured minimum succeed. A get returns the
    value with the latest stamp, where a remote reply is stamped on receipt. */
module DistributedCache {
  import opened Wrappers
  import opened Utf16
  import opened Peers
  import opened Protocol
  import CacheOptions
  import KeyHashing
  import LocalPeer
  import RemotePeer
  import PeersRegistry

  const GetFailedMessage := "Failed to get value from peers"
  const SetFailedMessage := "Failed to set value to peers"

  /** The remove operation reports its failure with the get operation's message. */
  const RemoveFailedMessage := GetFailedMessage

  /** What one replica's task meets: for a remote replica, what the transport did with its call,
      and for any replica the clock reading when the task ran (a local set stamps its value with
      it; a remote get stamps the reply with it). */
  datatype Call = Call(result: CallResult, now: int)

  /** `order` lists every one of `n` tasks exactly once, in the order they completed. */
  predicate CompletionOrder(order: seq<nat>, n: nat) {
    && |order| == n
    && (forall j :: 0 <= j < n ==> order[j] < n)
    && (forall j, k :: 0 <= j < k < n ==> order[j] != order[k])
    && (forall i :: 0 <= i < n ==> i in order)
  }

  /** The tasks that completed successfully, by replica index. */
  function Successes<T>(rs: seq<Result<T, Error>>): set<nat> {
    set i: nat | i < |rs| && rs[i].Success?
  }

  /** The successes among the tasks at the completion positions before `n`. */
  function SuccessesBefore<T>(rs: seq<Result<T, Error>>, order: seq<nat>, n: nat): set<nat>
    requires n <= |order|
  {
    set i: nat | i in order[..n] && i < |rs| && rs[i].Success?
  }

  /** One more completed task adds one to the count exactly when it succeeded. */
  lemma SuccessesBeforeStep<T>(rs: seq<Result<T, Error>>, order: seq<nat>, i: nat)
    requires CompletionOrder(order, |rs|) && i < |order|
    ensures |SuccessesBefore(rs, order, i + 1)| ==
      |SuccessesBefore(rs, order, i)| + (if rs[order[i]].Success? then 1 else 0)
  {
    assert order[..i + 1] == order[..i] + [order[i]];
    assert SuccessesBefore(rs, order, i + 1) ==
      SuccessesBefore(rs, order, i) + (if rs[order[i]].Success? then {order[i]} else {});
    assert order[i] !in order[..i];
  }

  /** Once every task has completed, the successes counted are all the successes. */
  lemma SuccessesBeforeAll<T>(rs: seq<Result<T, Error>>, order: seq<nat>)
    requires CompletionOrder(order, |rs|)
    ensures SuccessesBefore(rs, order, |order|) == Successes(rs)
  {
    assert order[..|order|] == order;
  }

  /** The minimum is met. */
  predicate Quorum<T>(rs: seq<Result<T, Error>>, minSuccesses: int) {
    |Successes(rs)| >= minSuccesses
  }

  /** No more tasks succeed than there are tasks. */
  lemma {:induction false} SuccessesBound<T>(rs: seq<Result<T, Error>>)
    ensures |Successes(rs)| <= |rs|
  {
    if |rs| > 0 {
      var init := rs[..|rs| - 1];
      SuccessesBound(init);
      SuccessesSnoc(init, rs[|rs| - 1]);
      assert rs == init + [rs[|rs| - 1]];
    }
  }

  /** One more task adds its index to the successes exactly when it succeeded. */
  lemma SuccessesSnoc<T>(rs: seq<Result<T, Error>>, t: Result<T, Error>)
    ensures Successes(rs + [t]) == if t.Success? then Successes(rs) + {|rs|} else Successes(rs)
    ensures |rs| !in Successes(rs)
  {
    var xs := rs + [t];
    assert forall i :: 0 <= i < |rs| ==> xs[i] == rs[i];
  }

  /** Every task succeeding meets any minimum up to the replica count. */
  lemma {:induction false} AllSucceed<T>(rs: seq<Result<T, Error>>)
    requires forall i :: 0 <= i < |rs| ==> rs[i].Success?
    ensures |Successes(rs)| == |rs|
  {
    if |rs| > 0 {
      var init := rs[..|rs| - 1];
      AllSucceed(init);
      SuccessesSnoc(init, rs[|rs| - 1]);
      assert rs == init + [rs[|rs| - 1]];
    }
  }

  /** A minimum of zero or less is always met, and one above the replica count never is. */
  lemma QuorumBounds<T>(rs: seq<Result<T, Error>>, minSuccesses: int)
    ensures minSuccesses <= 0 ==> Quorum(rs, minSuccesses)
    ensures minSuccesses > |rs| ==> !Quorum(rs, minSuccesses)
  {
    SuccessesBound(rs);
  }

  /** The faults of the failed tasks, each wrapped as its task carries it, in task-list order: the
      aggregate lists them in the order the replicas were chosen, not the order they failed. */
  function Faults<T>(rs: seq<Result<T, Error>>): (f: seq<Error>)
    ensures |f| + |Successes(rs)| == |rs|
    ensures forall e :: e in f <==> exists i :: 0 <= i < |rs| && rs[i].Failure? && e == TaskFault(rs[i].error)
  {
    if |rs| == 0 then []
    else
      var init := rs[..|rs| - 1];
      var last := rs[|rs| - 1];
      assert rs == init + [last];
      SuccessesSnoc(init, last);
      assert forall i :: 0 <= i < |init| ==> rs[i] == init[i];
      Faults(init) + (if last.Failure? then [TaskFault(last.error)] else [])
  }

  /** The aggregate keeps task-list order: the faults of two runs of tasks are the faults of
      the first run followed by those of the second. */
  lemma {:induction false} FaultsInTaskOrder<T>(a: seq<Result<T, Error>>, b: seq<Result<T, Error>>)
    ensures Faults(a + b) == Faults(a) + Faults(b)
    decreases |b|
  {
    if |b| == 0 {
      assert a + b == a;
    } else {
      var init := b[..|b| - 1];
      var last := b[|b| - 1];
      assert (a + b)[..|a + b| - 1] == a + init;
      assert (a + b)[|a + b| - 1] == last;
      FaultsInTaskOrder(a, init);
    }
  }

  /** With every task successful there is nothing to aggregate. */
  lemma NoFaultsWhenAllSucceed<T>(rs: seq<Result<T, Error>>)
    requires forall i :: 0 <= i < |rs| ==> rs[i].Success?
    ensures Faults(rs) == []
  {
    AllSucceed(rs);
  }

  /** Counts the successes as the tasks complete. The count does not depend on the completion
      order: it is the number of tasks that succeeded. */
  method CountSuccesses<T>(rs: seq<Result<T, Error>>, order: seq<nat>) returns (count: nat)
    requires CompletionOrder(order, |rs|)
    ensures count == |Successes(rs)|
  {
    count := 0;
    var i := 0;
    while i < |order|
      invariant i <= |order|
      invariant count == |SuccessesBefore(rs, order, i)|
    {
      var t := rs[order[i]];
      SuccessesBeforeStep(rs, order, i);
      if t.Success? {
        count := count + 1;
      }
      i := i + 1;
    }
    SuccessesBeforeAll(rs, order);
  }

  // ---- get ----

  /** The task a replica runs for a get: the local peer reads the store and never fails; a remote
      peer maps its call's outcome. */
  function GetTask(p: Peer, store: Store, key: Text, c: Call): (t: Result<Option<CacheValue>, Error>)
    ensures p.kind == Local ==> t == Success(LocalPeer.Get(store, key))
    ensures p.kind == Remote ==> t == RemotePeer.Get(c.result, c.now)
  {
    if p.kind == Local then Success(LocalPeer.Get(store, key)) else RemotePeer.Get(c.result, c.now)
  }

  function GetTasks(replicas: seq<Peer>, store: Store, key: Text, calls: seq<Call>): (rs: seq<Result<Option<CacheValue>, Error>>)
    requires |calls| == |replicas|
    ensures |rs| == |replicas|
    ensures forall i :: 0 <= i < |rs| ==> rs[i] == GetTask(replicas[i], store, key, calls[i])
  {
    seq(|replicas|, i requires 0 <= i < |replicas| => GetTask(replicas[i], store, key, calls[i]))
  }

  /** A task that succeeded with a value. */
  predicate Hit(t: Result<Option<CacheValue>, Error>) {
    t.Success? && t.value.Some?
  }

  function Stamp(t: Result<Option<CacheValue>, Error>): int
    requires Hit(t)
  {
    t.value.value.createdAt
  }

  /** The value of the task completing at position `j` is the freshest among the tasks completing
      before position `n`: no hit before `n` is stamped later, and every hit completing before it
      is stamped strictly earlier, so on a tie the first to complete wins. */
  predicate FreshestAt(rs: seq<Result<Option<CacheValue>, Error>>, order: seq<nat>, n: nat, j: nat)
    requires n <= |order| && forall k :: 0 <= k < |order| ==> order[k] < |rs|
  {
    && j < n
    && Hit(rs[order[j]])
    && (forall k :: 0 <= k < n && Hit(rs[order[k]]) ==> Stamp(rs[order[k]]) <= Stamp(rs[order[j]]))
    && (forall k :: 0 <= k < j && Hit(rs[order[k]]) ==> Stamp(rs[order[k]]) < Stamp(rs[order[j]]))
  }

  /** The source's get loop: counts the successes and keeps the freshest value, in completion
      order. */
  method Tally(rs: seq<Result<Option<CacheValue>, Error>>, order: seq<nat>) returns (count: nat, latest: Option<CacheValue>)
    requires CompletionOrder(order, |rs|)
    ensures count == |Successes(rs)|
    ensures latest.None? <==> forall k :: 0 <= k < |order| ==> !Hit(rs[order[k]])
    ensures latest.Some? ==> exists j: nat :: FreshestAt(rs, order, |order|, j) && latest.value == rs[order[j]].value.value
  {
    count := 0;
    latest := None;
    ghost var at: nat := 0;
    var i := 0;
    while i < |order|
      invariant i <= |order|
      invariant count == |SuccessesBefore(rs, order, i)|
      invariant latest.None? <==> forall k :: 0 <= k < i ==> !Hit(rs[order[k]])
      invariant latest.Some? ==> FreshestAt(rs, order, i, at) && latest.value == rs[order[at]].value.value
    {
      var t := rs[order[i]];
      SuccessesBeforeStep(rs, order, i);
      if t.Success? {
        if t.value.Some? && (latest.None? || t.value.value.createdAt > latest.value.createdAt) {
          if latest.None? {
            FreshestFirstHit(rs, order, i);
          } else {
            FreshestTakesNewer(rs, order, i, at);
          }
          latest := t.value;
          at := i;
        } else if latest.Some? {
          FreshestKeepsOlder(rs, order, i, at);
        }
        count := count + 1;
      } else if latest.Some? {
        FreshestKeepsOlder(rs, order, i, at);
      }
      i := i + 1;
    }
    SuccessesBeforeAll(rs, order);
  }

  /** The first hit to complete is the freshest so far. */
  lemma FreshestFirstHit(rs: seq<Result<Option<CacheValue>, Error>>, order: seq<nat>, i: nat)
    requires CompletionOrder(order, |rs|) && i < |order|
    requires Hit(rs[order[i]]) && forall k :: 0 <= k < i ==> !Hit(rs[order[k]])
    ensures FreshestAt(rs, order, i + 1, i)
  {
  }

  /** A hit stamped later than the freshest so far takes its place. */
  lemma FreshestTakesNewer(rs: seq<Result<Option<CacheValue>, Error>>, order: seq<nat>, i: nat, at: nat)
    requires CompletionOrder(order, |rs|) && i < |order| && FreshestAt(rs, order, i, at)
    requires Hit(rs[order[i]]) && Stamp(rs[order[i]]) > Stamp(rs[order[at]])
    ensures FreshestAt(rs, order, i + 1, i)
  {
  }

  /** Anything else completing leaves the freshest so far in place, a tie included. */
  lemma FreshestKeepsOlder(rs: seq<Result<Option<CacheValue>, Error>>, order: seq<nat>, i: nat, at: nat)
    requires CompletionOrder(order, |rs|) && i < |order| && FreshestAt(rs, order, i, at)
    requires Hit(rs[order[i]]) ==> Stamp(rs[order[i]]) <= Stamp(rs[order[at]])
    ensures FreshestAt(rs, order, i + 1, at)
  {
  }

  /** Whatever the completion order, the freshest value carries the same stamp: the latest stamp
      of any replica's hit. */
  lemma FreshestStampIndependentOfOrder(rs: seq<Result<Option<CacheValue>, Error>>, order1: seq<nat>, j1: nat, order2: seq<nat>, j2: nat)
    requires CompletionOrder(order1, |rs|) && CompletionOrder(order2, |rs|)
    requires FreshestAt(rs, order1, |order1|, j1) && FreshestAt(rs, order2, |order2|, j2)
    ensures Stamp(rs[order1[j1]]) == Stamp(rs[order2[j2]])
  {
    var i1 := order1[j1];
    var i2 := order2[j2];
    assert i1 in order2;
    var k2 :| 0 <= k2 < |order2| && order2[k2] == i1;
    assert i2 in order1;
    var k1 :| 0 <= k1 < |order1| && order1[k1] == i2;
  }

  /** A remote hit is stamped when its reply arrives, not when the remote replica stored it: once
      it arrives after a local value was stored, the local value is never the one chosen, however
      long ago the remote replica stored its own. */
  lemma ReceiptStampOutranksLocal(rs: seq<Result<Option<CacheValue>, Error>>, order: seq<nat>, j: nat,
                                  a: nat, local: CacheValue, b: nat, bytes: seq<Byte>, storedAt: Option<int>, received: int)
    requires CompletionOrder(order, |rs|) && j < |order| && FreshestAt(rs, order, |order|, j)
    requires a < |rs| && rs[a] == Success(Some(local))
    requires b < |rs| && rs[b] == RemotePeer.Get(Delivered(Some(GetReply(Some(bytes), storedAt))), received)
    requires received > local.createdAt
    ensures order[j] != a
  {
    assert b in order;
    var k :| 0 <= k < |order| && order[k] == b;
    assert Hit(rs[order[k]]);
  }

  /** When no two hits share a stamp, the completion order does not change which value a get
      returns. */
  lemma FreshestUniqueWithoutTies(rs: seq<Result<Option<CacheValue>, Error>>, order1: seq<nat>, j1: nat, order2: seq<nat>, j2: nat)
    requires CompletionOrder(order1, |rs|) && CompletionOrder(order2, |rs|)
    requires forall a, b :: 0 <= a < |rs| && 0 <= b < |rs| && a != b && Hit(rs[a]) && Hit(rs[b]) ==> Stamp(rs[a]) != Stamp(rs[b])
    requires FreshestAt(rs, order1, |order1|, j1) && FreshestAt(rs, order2, |order2|, j2)
    ensures order1[j1] == order2[j2]
  {
    FreshestStampIndependentOfOrder(rs, order1, j1, order2, j2);
  }

  /** Get: an empty registry throws before any task runs; otherwise the value is the freshest hit
      when at least the minimum of replicas succeed, and an aggregate of the faults when not. A
      miss on every replica that succeeded returns nothing. */
  method Get(alg: KeyHashing.Algorithm, reg: PeersRegistry.Registry, store: Store, opts: CacheOptions.Options,
             key: Text, calls: seq<Call>, order: seq<nat>)
    returns (r: Result<Option<seq<Byte>>, Error>)
    requires var replicas := PeersRegistry.PeersForKey(alg, reg, key, opts.replicationFactor);
      replicas.Success? ==> |calls| == |replicas.value| && CompletionOrder(order, |replicas.value|)
    ensures var replicas := PeersRegistry.PeersForKey(alg, reg, key, opts.replicationFactor);
      replicas.Failure? ==> r == Failure(replicas.error)
    ensures var replicas := PeersRegistry.PeersForKey(alg, reg, key, opts.replicationFactor);
      replicas.Success? ==>
        var rs := GetTasks(replicas.value, store, key, calls);
        && (r.Failure? <==> !Quorum(rs, opts.minReplicationSuccesses))
        && (r.Failure? ==> r.error == AggregateError(GetFailedMessage, Faults(rs)))
        && (r.Success? ==> (r.value.None? <==> forall k :: 0 <= k < |order| ==> !Hit(rs[order[k]])))
        && (r.Success? && r.value.Some? ==>
              exists j: nat :: FreshestAt(rs, order, |order|, j) && r.value.value == rs[order[j]].value.value.value)
  {
    var replicas := PeersRegistry.PeersForKey(alg, reg, key, opts.replicationFactor);
    if replicas.Failure? {
      return Failure(replicas.error);
    }
    var rs := GetTasks(replicas.value, store, key, calls);
    var count, latest := Tally(rs, order);
    if count < opts.minReplicationSuccesses {
      return Failure(AggregateError(GetFailedMessage, Faults(rs)));
    }
    if latest.Some? {
      r := Success(Some(latest.value.value));
    } else {
      r := Success(None);
    }
  }

  // ---- set ----

  /** The task a replica runs for a set: the local peer writes the store and never fails; a remote
      peer maps its call's outcome. */
  function SetTask(p: Peer, c: Call): (t: Result<(), Error>)
    ensures p.kind == Local ==> t.Success?
    ensures p.kind == Remote ==> t == RemotePeer.Set(c.result)
  {
    if p.kind == Local then Success(()) else RemotePeer.Set(c.result)
  }

  function SetTasks(replicas: seq<Peer>, calls: seq<Call>): (rs: seq<Result<(), Error>>)
    requires |calls| == |replicas|
    ensures |rs| == |replicas|
    ensures forall i :: 0 <= i < |rs| ==> rs[i] == SetTask(replicas[i], calls[i])
  {
    seq(|replicas|, i requires 0 <= i < |replicas| => SetTask(replicas[i], calls[i]))
  }

  /** The store after every local replica has written the value, in task-list order: a local
      replica writes as its task starts, before any completion is awaited, so the write stands
      whether or not the set as a whole succeeds. */
  function SetWrites(replicas: seq<Peer>, calls: seq<Call>, store: Store, key: Text, value: seq<Byte>): (s: Store)
    requires |calls| == |replicas|
    ensures (forall i :: 0 <= i < |replicas| ==> replicas[i].kind != Local) ==> s == store
    ensures (exists i :: 0 <= i < |replicas| && replicas[i].kind == Local) ==>
      PeerKey(key) in s && s[PeerKey(key)].value == value
      && exists i :: 0 <= i < |replicas| && replicas[i].kind == Local && s[PeerKey(key)].createdAt == calls[i].now
    ensures forall k :: k != PeerKey(key) ==> (k in s <==> k in store)
    ensures forall k :: k != PeerKey(key) && k in store ==> s[k] == store[k]
  {
    if |replicas| == 0 then store
    else
      var before := SetWrites(replicas[..|replicas| - 1], calls[..|calls| - 1], store, key, value);
      var last := |replicas| - 1;
      if replicas[last].kind == Local then LocalPeer.Set(before, key, value, calls[last].now)
      else
        assert forall i :: 0 <= i < last ==> replicas[..last][i] == replicas[i];
        assert forall i :: 0 <= i < last ==> calls[..last][i] == calls[i];
        before
  }

  /** Set: an empty registry throws before anything is written; otherwise every local replica
      writes, and the set fails with an aggregate of the faults when fewer than the minimum of
      replicas succeed. */
  method Set(alg: KeyHashing.Algorithm, reg: PeersRegistry.Registry, store: Store, opts: CacheOptions.Options,
             key: Text, value: seq<Byte>, calls: seq<Call>, order: seq<nat>)
    returns (r: Result<(), Error>, s: Store)
    requires var replicas := PeersRegistry.PeersForKey(alg, reg, key, opts.replicationFactor);
      replicas.Success? ==> |calls| == |replicas.value| && CompletionOrder(order, |replicas.value|)
    ensures var replicas := PeersRegistry.PeersForKey(alg, reg, key, opts.replicationFactor);
      replicas.Failure? ==> r == Failure(replicas.error) && s == store
    ensures var replicas := PeersRegistry.PeersForKey(alg, reg, key, opts.replicationFactor);
      replicas.Success? ==>
        var rs := SetTasks(replicas.value, calls);
        && (r.Failure? <==> !Quorum(rs, opts.minReplicationSuccesses))
        && (r.Failure? ==> r.error == AggregateError(SetFailedMessage, Faults(rs)))
        && s == SetWrites(replicas.value, calls, store, key, value)
  {
    var replicas := PeersRegistry.PeersForKey(alg, reg, key, opts.replicationFactor);
    if replicas.Failure? {
      return Failure(replicas.error), store;
    }
    var rs := SetTasks(replicas.value, calls);
    s := SetWrites(replicas.value, calls, store, key, value);
    var count := CountSuccesses(rs, order);
    if count < opts.minReplicationSuccesses {
      return Failure(AggregateError(SetFailedMessage, Faults(rs))), s;
    }
    r := Success(());
  }

  // ---- remove ----

  function RemoveTask(p: Peer, c: Call): (t: Result<(), Error>)
    ensures p.kind == Local ==> t.Success?
    ensures p.kind == Remote ==> t == RemotePeer.Remove(c.result)
  {
    if p.kind == Local then Success(()) else RemotePeer.Remove(c.result)
  }

  function RemoveTasks(replicas: seq<Peer>, calls: seq<Call>): (rs: seq<Result<(), Error>>)
    requires |calls| == |replicas|
    ensures |rs| == |replicas|
    ensures forall i :: 0 <= i < |rs| ==> rs[i] == RemoveTask(replicas[i], calls[i])
  {
    seq(|replicas|, i requires 0 <= i < |replicas| => RemoveTask(replicas[i], calls[i]))
  }

  /** The store after the local replicas dropped the key: gone if any replica is local, untouched
      otherwise. */
  function RemoveWrites(replicas: seq<Peer>, store: Store, key: Text): (s: Store)
    ensures (exists i :: 0 <= i < |replicas| && replicas[i].kind == Local) ==> s == LocalPeer.Remove(store, key)
    ensures (forall i :: 0 <= i < |replicas| ==> replicas[i].kind != Local) ==> s == store
  {
    if exists i :: 0 <= i < |replicas| && replicas[i].kind == Local then LocalPeer.Remove(store, key) else store
  }

  /** Remove: as set, with the local replicas dropping the key; the aggregate carries the get
      operation's message. */
  method Remove(alg: KeyHashing.Algorithm, reg: PeersRegistry.Registry, store: Store, opts: CacheOptions.Options,
                key: Text, calls: seq<Call>, order: seq<nat>)
    returns (r: Result<(), Error>, s: Store)
    requires var replicas := PeersRegistry.PeersForKey(alg, reg, key, opts.replicationFactor);
      replicas.Success? ==> |calls| == |replicas.value| && CompletionOrder(order, |replicas.value|)
    ensures var replicas := PeersRegistry.PeersForKey(alg, reg, key, opts.replicationFactor);
      replicas.Failure? ==> r == Failure(replicas.error) && s == store
    ensures var replicas := PeersRegistry.PeersForKey(alg, reg, key, opts.replicationFactor);
      replicas.Success? ==>
        var rs := RemoveTasks(replicas.value, calls);
        && (r.Failure? <==> !Quorum(rs, opts.minReplicationSuccesses))
        && (r.Failure? ==> r.error == AggregateError(RemoveFailedMessage, Faults(rs)))
        && s == RemoveWrites(replicas.value, store, key)
  {
    var replicas := PeersRegistry.PeersForKey(alg, reg, key, opts.replicationFactor);
    if replicas.Failure? {
      return Failure(replicas.error), store;
    }
    var rs := RemoveTasks(replicas.value, calls);
    s := RemoveWrites(replicas.value, store, key);
    var count := CountSuccesses(rs, order);
    if count < opts.minReplicationSuccesses {
      return Failure(AggregateError(RemoveFailedMessage, Faults(rs))), s;
    }
    r := Success(());
  }

  /** A replica set of local peers only always meets a minimum no larger than the replica count,
      whatever the transport does, for each operation. */
  lemma LocalReplicasMeetQuorum(replicas: seq<Peer>, store: Store, key: Text, calls: seq<Call>, minSuccesses: int)
    requires |calls| == |replicas|
    requires forall i :: 0 <= i < |replicas| ==> replicas[i].kind == Local
    requires minSuccesses <= |replicas|
    ensures Quorum(GetTasks(replicas, store, key, calls), minSuccesses)
    ensures Quorum(SetTasks(replicas, calls), minSuccesses)
    ensures Quorum(RemoveTasks(replicas, calls), minSuccesses)
  {
    AllSucceed(GetTasks(replicas, store, key, calls));
    AllSucceed(SetTasks(replicas, calls));
    AllSucceed(RemoveTasks(replicas, calls));
  }

  // ---- info ----

  /** The diagnostic record: this peer's id, the ids of every registered peer in registry order,
      and how many keys the local store holds. */
  datatype Info = Info(peerId: Text, peers: seq<Text>, keysCount: int)

  /** Without a local peer the id is empty and the count is zero. */
  function GetInfo(reg: PeersRegistry.Registry, store: Store): (info: Info)
    ensures reg.localPeer.Some? ==> info.peerId == reg.localPeer.value.id
    ensures reg.localPeer.None? ==> info.peerId == [] && info.keysCount == 0
    ensures |info.peers| == |reg.peers| && forall i :: 0 <= i < |reg.peers| ==> info.peers[i] == reg.peers[i].id
    ensures reg.localPeer.Some? ==> info.keysCount == |LocalPeer.CachedKeys(store)|
  {
    var ids := seq(|reg.peers|, i requires 0 <= i < |reg.peers| => reg.peers[i].id);
    match reg.localPeer
    case Some(local) => Info(local.id, ids, |LocalPeer.CachedKeys(store)|)
    case None => Info([], ids, 0)
  }

  /** The key count follows the local store: a set of a new key through the local peer adds one,
      and removing a held key takes one away. */
  lemma InfoCountsKeys(reg: PeersRegistry.Registry, store: Store, key: Text, value: seq<Byte>, now: int)
    requires reg.localPeer.Some? && PeerKey(key) !in store
    ensures GetInfo(reg, LocalPeer.Set(store, key, value, now)).keysCount == GetInfo(reg, store).keysCount + 1
    ensures GetInfo(reg, LocalPeer.Remove(LocalPeer.Set(store, key, value, now), key)).keysCount == GetInfo(reg, store).keysCount
  {
    LocalPeer.CachedKeysAfterSet(store, key, value, now);
    var stored := LocalPeer.Set(store, key, value, now);
    LocalPeer.CachedKeysAfterRemove(stored, key);
    assert key !in LocalPeer.CachedKeys(store);
    assert LocalPeer.CachedKeys(stored) - {key} == LocalPeer.CachedKeys(store);
  }
}

=== FILE: discovery.dfy ===
/** Peer discovery against the Kubernetes pod list: the start step that describes this pod and
    resets the known peers to it, and one pass of the watch loop that compares a pod listing
    with the known peers, records the new running pods, forgets the remote peers whose pods are
    gone, and tells the registry about both. */
module KubernetesDiscovery {
  import opened Wrappers
  import opened Utf16
  import opened Peers
  import CacheOptions

  /** What a pod listing reports of one pod: its uid, name, phase and IP (absent until the pod
      has one). */
  datatype Pod = Pod(uid: Text, name: string, phase: string, podIP: Option<string>)

  const RunningPhase := "Running"

  /** The known peers, keyed by pod uid. */
  type Known = map<Text, PeerDescription>

  const EmptyHostReason := "Invalid URI: The hostname could not be parsed."

  /** A pod's description: its uid is the peer id, and its endpoint is its IP on the configured
      peer port over https or http as configured. A pod without an IP leaves the URI's host
      empty, which the URI type rejects, so no description is built. */
  function Describe(pod: Pod, kind: PeerKind, opts: CacheOptions.Options): (r: Result<PeerDescription, Error>)
    ensures r.Failure? <==> pod.podIP.None?
    ensures r.Failure? ==> r.error == UriFormat(EmptyHostReason)
    ensures r.Success? ==>
      r.value.id == pod.uid && r.value.kind == kind
      && r.value.endpoint.host == pod.podIP.value && r.value.endpoint.port == opts.peerPort
      && r.value.endpoint.scheme == (if opts.peerHttps then "https" else "http")
  {
    match pod.podIP
    case None => Failure(UriFormat(EmptyHostReason))
    case Some(ip) => Success(PeerDescription(pod.uid, Endpoint(if opts.peerHttps then "https" else "http", ip, opts.peerPort), kind))
  }

  /** Start: this pod becomes the local peer's description, and the known peers become exactly
      this pod, whatever an earlier start left there. When this pod's description cannot be
      built, start fails before touching the known peers. */
  function Start(previous: Known, selfPod: Pod, opts: CacheOptions.Options): (out: (Known, Result<PeerDescription, Error>))
    ensures out.1 == Describe(selfPod, Local, opts)
    ensures out.1.Failure? <==> selfPod.podIP.None?
    ensures out.1.Failure? ==> out.0 == previous
    ensures out.1.Success? ==> out.0.Keys == {selfPod.uid} && out.0[selfPod.uid] == out.1.value
  {
    var self := Describe(selfPod, Local, opts);
    if self.Failure? then (previous, self)
    else (map[selfPod.uid := self.value], self)
  }

  /** Every known description is filed under its own id. */
  predicate Keyed(known: Known) {
    forall k :: k in known ==> known[k].id == k
  }

  lemma StartIsKeyed(previous: Known, selfPod: Pod, opts: CacheOptions.Options)
    ensures selfPod.podIP.Some? ==>
      Keyed(Start(previous, selfPod, opts).0) && Start(previous, selfPod, opts).0[selfPod.uid].kind == Local
  {
  }

  predicate DistinctUids(pods: seq<Pod>) {
    forall i, j :: 0 <= i < j < |pods| ==> pods[i].uid != pods[j].uid
  }

  function Uids(pods: seq<Pod>): set<Text> {
    set p | p in pods :: p.uid
  }

  /** A pod the pass may record: running, with an IP, and not this machine. */
  predicate Eligible(pod: Pod, machineName: string) {
    pod.phase == RunningPhase && pod.podIP.Some? && pod.name != machineName
  }

  /** The pods a pass records, in listing order: the eligible ones whose uid is not yet known. */
  function NewPods(pods: seq<Pod>, known: Known, machineName: string): (r: seq<Pod>)
    ensures forall p :: p in r <==> p in pods && Eligible(p, machineName) && p.uid !in known
    ensures |r| <= |pods|
  {
    if |pods| == 0 then []
    else
      assert pods == [pods[0]] + pods[1..];
      (if Eligible(pods[0], machineName) && pods[0].uid !in known then [pods[0]] else [])
      + NewPods(pods[1..], known, machineName)
  }

  /** The descriptions of remote peers for the given pods, in the same order. */
  function Describes(pods: seq<Pod>, opts: CacheOptions.Options): (ds: seq<PeerDescription>)
    requires forall p :: p in pods ==> p.podIP.Some?
    ensures |ds| == |pods| && forall i :: 0 <= i < |pods| ==> Describe(pods[i], Remote, opts) == Success(ds[i])
  {
    seq(|pods|, i requires 0 <= i < |pods| => Describe(pods[i], Remote, opts).value)
  }

  lemma DescribesCons(pod: Pod, pods: seq<Pod>, opts: CacheOptions.Options)
    requires pod.podIP.Some? && forall p :: p in pods ==> p.podIP.Some?
    ensures Describes([pod] + pods, opts) == [Describe(pod, Remote, opts).value] + Describes(pods, opts)
  {
    assert forall i :: 0 < i < |pods| + 1 ==> ([pod] + pods)[i] == pods[i - 1];
  }

  /** Filing a uid no listed pod has does not change which pods are new. */
  lemma {:induction false} NewPodsIgnoresOtherUid(pods: seq<Pod>, known: Known, machineName: string, uid: Text, d: PeerDescription)
    requires forall p :: p in pods ==> p.uid != uid
    ensures NewPods(pods, known[uid := d], machineName) == NewPods(pods, known, machineName)
    decreases |pods|
  {
    if |pods| > 0 {
      assert pods[0] in pods;
      assert forall p :: p in pods[1..] ==> p in pods;
      NewPodsIgnoresOtherUid(pods[1..], known, machineName, uid, d);
    }
  }

  /** In a listing with distinct uids, no later pod shares the first one's uid, and the rest of
      the listing has distinct uids too. */
  lemma HeadUidUnique(pods: seq<Pod>)
    requires DistinctUids(pods) && |pods| > 0
    ensures forall p :: p in pods[1..] ==> p.uid != pods[0].uid
    ensures DistinctUids(pods[1..])
  {
    forall p | p in pods[1..]
      ensures p.uid != pods[0].uid
    {
      var j :| 0 <= j < |pods[1..]| && pods[1..][j] == p;
      assert pods[j + 1] == p;
    }
  }

  /** The new pods of a listing: the first pod when it is new, then the new pods of the rest. */
  lemma NewPodsCons(pods: seq<Pod>, known: Known, machineName: string)
    requires |pods| > 0
    ensures NewPods(pods, known, machineName) ==
      (if Eligible(pods[0], machineName) && pods[0].uid !in known then [pods[0]] else []) + NewPods(pods[1..], known, machineName)
  {
  }

  /** The listing walk: each eligible pod whose uid is not yet known is described as a remote peer,
      recorded and reported, in listing order. */
  function AddNew(known: Known, pods: seq<Pod>, machineName: string, opts: CacheOptions.Options): (out: (Known, seq<PeerDescription>))
    ensures forall k :: k in known ==> k in out.0 && out.0[k] == known[k]
    decreases |pods|
  {
    if |pods| == 0 then (known, [])
    else
      var pod := pods[0];
      if !Eligible(pod, machineName) || pod.uid in known then
        AddNew(known, pods[1..], machineName, opts)
      else
        var d := Describe(pod, Remote, opts).value;
        var more := AddNew(known[pod.uid := d], pods[1..], machineName, opts);
        (more.0, [d] + more.1)
  }

  /** With distinct uids, the walk reports the new pods' descriptions in listing order. */
  lemma {:induction false} AddNewReportsNewPods(known: Known, pods: seq<Pod>, machineName: string, opts: CacheOptions.Options)
    requires DistinctUids(pods)
    ensures AddNew(known, pods, machineName, opts).1 == Describes(NewPods(pods, known, machineName), opts)
    decreases |pods|
  {
    if |pods| > 0 {
      var pod := pods[0];
      var rest := pods[1..];
      HeadUidUnique(pods);
      NewPodsCons(pods, known, machineName);
      if !Eligible(pod, machineName) || pod.uid in known {
        AddNewReportsNewPods(known, rest, machineName, opts);
      } else {
        var d := Describe(pod, Remote, opts).value;
        AddNewReportsNewPods(known[pod.uid := d], rest, machineName, opts);
        NewPodsIgnoresOtherUid(rest, known, machineName, pod.uid, d);
        DescribesCons(pod, NewPods(rest, known, machineName), opts);
      }
    }
  }

  /** With distinct uids, the walk files each new pod's description under its uid and nothing
      else. */
  lemma {:induction false} AddNewRecordsNewPods(known: Known, pods: seq<Pod>, machineName: string, opts: CacheOptions.Options)
    requires DistinctUids(pods)
    ensures var out := AddNew(known, pods, machineName, opts);
      && (forall k :: k in out.0 <==> k in known || exists p :: p in NewPods(pods, known, machineName) && p.uid == k)
      && (forall p :: p in NewPods(pods, known, machineName) ==> Describe(p, Remote, opts) == Success(out.0[p.uid]))
    decreases |pods|
  {
    if |pods| > 0 {
      var pod := pods[0];
      var rest := pods[1..];
      HeadUidUnique(pods);
      NewPodsCons(pods, known, machineName);
      if !Eligible(pod, machineName) || pod.uid in known {
        AddNewRecordsNewPods(known, rest, machineName, opts);
      } else {
        var d := Describe(pod, Remote, opts).value;
        var grown := known[pod.uid := d];
        AddNewRecordsNewPods(grown, rest, machineName, opts);
        NewPodsIgnoresOtherUid(rest, known, machineName, pod.uid, d);
      }
    }
  }

  /** The outcome of one pass: aborted when the listing repeats a uid (building the by-uid index
      throws, the loop logs it and nothing changes), otherwise the new known peers and what was
      added and removed. */
  datatype Pass =
    | Aborted
    | Reconciled(known: Known, added: seq<PeerDescription>, removed: set<PeerDescription>)

  /** The remote peers whose pods are no longer listed. */
  function Gone(known: Known, uids: set<Text>): (gone: set<PeerDescription>)
    ensures forall d :: d in gone <==> exists k :: k in known && known[k].kind == Remote && k !in uids && d == known[k]
  {
    set k | k in known && known[k].kind == Remote && k !in uids :: known[k]
  }

  /** Forgets the removed descriptions, each by its id. */
  function Forget(known: Known, removed: set<PeerDescription>): (after: Known)
    ensures forall k :: k in after <==> k in known && forall d :: d in removed ==> d.id != k
    ensures forall k :: k in after ==> after[k] == known[k]
  {
    map k | k in known && (forall d :: d in removed ==> d.id != k) :: known[k]
  }

  /** One pass over a pod listing. */
  function Reconcile(known: Known, pods: seq<Pod>, machineName: string, opts: CacheOptions.Options): (pass: Pass)
    ensures pass.Aborted? <==> !DistinctUids(pods)
    ensures pass.Reconciled? ==> pass.added == Describes(NewPods(pods, known, machineName), opts)
  {
    if !DistinctUids(pods) then Aborted
    else
      AddNewReportsNewPods(known, pods, machineName, opts);
      var grown := AddNew(known, pods, machineName, opts);
      var removed := Gone(grown.0, Uids(pods));
      Reconciled(Forget(grown.0, removed), grown.1, removed)
  }

  /** What a pass removes: exactly the known remote peers whose uid the listing lacks (no pod the
      pass adds can be one of them, since every added pod is listed). */
  lemma RemovedAreGone(known: Known, pods: seq<Pod>, machineName: string, opts: CacheOptions.Options)
    requires DistinctUids(pods)
    ensures var pass := Reconcile(known, pods, machineName, opts);
      forall d :: d in pass.removed <==> exists k :: k in known && known[k].kind == Remote && k !in Uids(pods) && d == known[k]
  {
    var grown := AddNew(known, pods, machineName, opts);
    AddNewRecordsNewPods(known, pods, machineName, opts);
    forall k | k in grown.0 && k !in known
      ensures k in Uids(pods)
    {
      var p :| p in NewPods(pods, known, machineName) && p.uid == k;
    }
  }

  /** A pass keeps the known peers filed under their ids, keeps every local entry, and with them
      filed so, leaves exactly the entries that were known or added and are still listed or local. */
  lemma ReconcileKeepsKeyed(known: Known, pods: seq<Pod>, machineName: string, opts: CacheOptions.Options)
    requires Keyed(known) && DistinctUids(pods)
    ensures var pass := Reconcile(known, pods, machineName, opts);
      && Keyed(pass.known)
      && (forall k :: k in known && known[k].kind == Local ==> k in pass.known && pass.known[k] == known[k])
      && (forall k :: k in pass.known <==>
            (k in known || exists p :: p in NewPods(pods, known, machineName) && p.uid == k)
            && (k in Uids(pods) || (k in known && known[k].kind == Local)))
  {
    var grown := AddNew(known, pods, machineName, opts);
    var removed := Gone(grown.0, Uids(pods));
    AddNewRecordsNewPods(known, pods, machineName, opts);
    forall k | k in grown.0 && k !in known
      ensures k in Uids(pods) && grown.0[k].id == k && grown.0[k].kind == Remote
    {
      var p :| p in NewPods(pods, known, machineName) && p.uid == k;
    }
    forall k | k in grown.0
      ensures (forall d :: d in removed ==> d.id != k) <==> k in Uids(pods) || grown.0[k].kind == Local
    {
      if k !in Uids(pods) && grown.0[k].kind == Remote {
        assert grown.0[k] in removed;
      }
    }
  }

  /** A known pod that is still listed is left alone whatever its phase or IP: it stays known
      with the same description, is not reported again and is not removed. */
  lemma ListedKnownUntouched(known: Known, pods: seq<Pod>, machineName: string, opts: CacheOptions.Options, k: Text)
    requires Keyed(known) && DistinctUids(pods)
    requires k in known && k in Uids(pods)
    ensures var pass := Reconcile(known, pods, machineName, opts);
      && k in pass.known && pass.known[k] == known[k]
      && known[k] !in pass.removed
      && forall d :: d in pass.added ==> d.id != k
  {
    ReconcileKeepsKeyed(known, pods, machineName, opts);
    RemovedAreGone(known, pods, machineName, opts);
    KnownNotAdded(known, pods, machineName, opts, k);
  }

  /** A pass never reports a pod whose uid was already known. */
  lemma KnownNotAdded(known: Known, pods: seq<Pod>, machineName: string, opts: CacheOptions.Options, k: Text)
    requires DistinctUids(pods) && k in known
    ensures forall d :: d in Reconcile(known, pods, machineName, opts).added ==> d.id != k
  {
  }

  /** A second pass over the same listing finds nothing to add or remove and changes nothing: a
      peer reported once is not reported again while the listing stays the same. */
  lemma ReconcileIdempotent(known: Known, pods: seq<Pod>, machineName: string, opts: CacheOptions.Options)
    requires Keyed(known) && DistinctUids(pods)
    ensures var first := Reconcile(known, pods, machineName, opts);
      var second := Reconcile(first.known, pods, machineName, opts);
      second.Reconciled? && second.added == [] && second.removed == {} && second.known == first.known
  {
    var first := Reconcile(known, pods, machineName, opts);
    NothingNewAfterPass(known, pods, machineName, opts);
    NothingGoneAfterPass(known, pods, machineName, opts);
    AddNewReportsNewPods(first.known, pods, machineName, opts);
    AddNewRecordsNewPods(first.known, pods, machineName, opts);
    var grown := AddNew(first.known, pods, machineName, opts);
    assert grown.0 == first.known;
    assert Forget(first.known, {}) == first.known;
  }

  /** After a pass, every eligible pod of the same listing is known. */
  lemma NothingNewAfterPass(known: Known, pods: seq<Pod>, machineName: string, opts: CacheOptions.Options)
    requires Keyed(known) && DistinctUids(pods)
    ensures NewPods(pods, Reconcile(known, pods, machineName, opts).known, machineName) == []
  {
    var first := Reconcile(known, pods, machineName, opts);
    ReconcileKeepsKeyed(known, pods, machineName, opts);
    forall p | p in pods && Eligible(p, machineName)
      ensures p.uid in first.known
    {
      assert p.uid in Uids(pods);
      assert p.uid in known || p in NewPods(pods, known, machineName);
    }
    NoNewPodsWhenAllKnown(pods, first.known, machineName);
  }

  /** A listing whose eligible pods are all known has no new pods. */
  lemma {:induction false} NoNewPodsWhenAllKnown(pods: seq<Pod>, known: Known, machineName: string)
    requires forall p :: p in pods && Eligible(p, machineName) ==> p.uid in known
    ensures NewPods(pods, known, machineName) == []
    decreases |pods|
  {
    if |pods| > 0 {
      assert pods[0] in pods;
      assert forall p :: p in pods[1..] ==> p in pods;
      NoNewPodsWhenAllKnown(pods[1..], known, machineName);
    }
  }

  /** After a pass, every known remote peer's pod is in the same listing. */
  lemma NothingGoneAfterPass(known: Known, pods: seq<Pod>, machineName: string, opts: CacheOptions.Options)
    requires Keyed(known) && DistinctUids(pods)
    ensures Gone(Reconcile(known, pods, machineName, opts).known, Uids(pods)) == {}
  {
    var first := Reconcile(known, pods, machineName, opts);
    ReconcileKeepsKeyed(known, pods, machineName, opts);
    assert forall d :: d !in Gone(first.known, Uids(pods));
  }

  /** This machine's own pod is never reported as a new peer. */
  lemma SelfNeverAdded(known: Known, pods: seq<Pod>, machineName: string, opts: CacheOptions.Options, i: int)
    requires 0 <= i < |pods| && pods[i].name == machineName
    requires forall j :: 0 <= j < |pods| && j != i ==> pods[j].uid != pods[i].uid
    ensures var pass := Reconcile(known, pods, machineName, opts);
      pass.Reconciled? ==> forall d :: d in pass.added ==> d.id != pods[i].uid
  {
  }

  /** What the pass tells the registry: removals first, then discoveries, each only when there is
      something to tell. A removal notification that throws ends the pass, so the discoveries it
      recorded are never told. */
  datatype Notice = RemovedNotice(removed: set<PeerDescription>) | DiscoveredNotice(added: seq<PeerDescription>)

  function Notify(added: seq<PeerDescription>, removed: set<PeerDescription>, removeFault: Option<Error>): (sent: seq<Notice>)
    ensures RemovedNotice(removed) in sent <==> removed != {}
    ensures DiscoveredNotice(added) in sent <==> added != [] && (removed == {} || removeFault.None?)
    ensures |sent| <= 2
    ensures |sent| == 2 ==> sent == [RemovedNotice(removed), DiscoveredNotice(added)]
    ensures forall n :: n in sent ==> n == RemovedNotice(removed) || n == DiscoveredNotice(added)
  {
    var first := if removed != {} then [RemovedNotice(removed)] else [];
    if removed != {} && removeFault.Some? then first
    else first + (if added != [] then [DiscoveredNotice(added)] else [])
  }

  /** One turn of the watch loop: a pass and its notifications. An aborted pass tells nothing
      and keeps the known peers. A failing notification is logged and the known peers stay as the
      pass left them. */
  function WatchStep(known: Known, pods: seq<Pod>, machineName: string, opts: CacheOptions.Options, removeFault: Option<Error>)
    : (out: (Known, seq<Notice>))
    ensures !DistinctUids(pods) ==> out == (known, [])
  {
    match Reconcile(known, pods, machineName, opts)
    case Aborted => (known, [])
    case Reconciled(after, added, removed) => (after, Notify(added, removed, removeFault))
  }

  /** A notification lost to a fault is never retried: the next turn over the same listing tells
      nothing, whatever faults it meets. */
  lemma LostNoticeNotRetried(known: Known, pods: seq<Pod>, machineName: string, opts: CacheOptions.Options,
                             fault1: Option<Error>, fault2: Option<Error>)
    requires Keyed(known)
    ensures var first := WatchStep(known, pods, machineName, opts, fault1);
      WatchStep(first.0, pods, machineName, opts, fault2) == (first.0, [])
  {
    if DistinctUids(pods) {
      ReconcileIdempotent(known, pods, machineName, opts);
    }
  }
}

=== FILE: keyhash.dfy ===
/** The keys-distribution hash algorithm: peer ids and cache keys are hashed with Murmur3 under two
    different seeds, and a peer's rank for a key is the low word of the product of the two hashes. */
module KeyHashing {
  import opened Utf16
  import Murmur3

  const PeerHashSeed: bv32 := 1818163
  const KeyHashSeed: bv32 := 6722263

  /** What the registry and the peer factory are given to hash with: a peer hash, a key hash,
      and the combine step whose result ranks a peer for a key. Both consumers see only this
      shape; `Murmur` is the algorithm the cache is wired with. */
  datatype Algorithm = Algorithm(
    peerHash: Text -> bv32,
    keyHash: Text -> bv32,
    combinedHash: (bv32, bv32) -> nat)

  const Murmur: Algorithm := Algorithm(PeerHash, KeyHash, CombinedHash)

  function PeerHash(peerId: Text): bv32 {
    Murmur3.Compute(peerId, PeerHashSeed)
  }

  function KeyHash(key: Text): bv32 {
    Murmur3.Compute(key, KeyHashSeed)
  }

  /** A peer's rank for a key. Both hashes are widened to 64 bits and multiplied, which cannot
      overflow 64 bits, then masked with 0xFFFFFFFF: the exact product modulo 2^32, kept here as an
      unsigned number so that ranks compare as the unsigned words do. */
  function CombinedHash(peerHash: bv32, keyHash: bv32): (rank: nat)
    ensures rank < 0x1_0000_0000
  {
    Product(peerHash as int, keyHash as int) % 0x1_0000_0000
  }

  function Product(a: nat, b: nat): nat {
    a * b
  }

  lemma SeedsDiffer()
    ensures PeerHashSeed != KeyHashSeed
  {
  }

  /** The product commutes, so swapping which hash is the peer's leaves the rank unchanged. */
  lemma CombinedHashCommutes(a: bv32, b: bv32)
    ensures CombinedHash(a, b) == CombinedHash(b, a)
  {
    assert Product(a as int, b as int) == Product(b as int, a as int);
  }

  /** A zero factor makes the rank zero. */
  lemma CombinedHashOfZero(h: bv32)
    ensures CombinedHash(h, 0) == 0 && CombinedHash(0, h) == 0
  {
    assert Product(h as int, 0) == 0 && Product(0, h as int) == 0;
  }

  /** The empty key hashes to 0, so every peer ranks 0 for it and all peers tie. */
  lemma EmptyKeyTies(peerHash: bv32)
    ensures KeyHash([]) == 0 && CombinedHash(peerHash, KeyHash([])) == 0
  {
    CombinedHashOfZero(peerHash);
  }

  /** A peer whose id is empty hashes to 0 and ranks 0 for every key. */
  lemma EmptyIdRanksZero(key: Text)
    ensures PeerHash([]) == 0 && CombinedHash(PeerHash([]), KeyHash(key)) == 0
  {
    CombinedHashOfZero(KeyHash(key));
  }

  /** The hashes of the one-unit ids "a", "b", "c", "g" and the one-unit key "k". */
  lemma OneUnitHashes()
    ensures PeerHash([0x61]) == 0x4d50edf3 && PeerHash([0x62]) == 0x9d5c22ef
    ensures PeerHash([0x63]) == 0x383b7ce8 && PeerHash([0x67]) == 0x528f75db
    ensures KeyHash([0x6b]) == 0xa11d6b29
  {
    Murmur3.SingleUnit(0x61, PeerHashSeed, 0x4d50edf3);
    Murmur3.SingleUnit(0x62, PeerHashSeed, 0x9d5c22ef);
    Murmur3.SingleUnit(0x63, PeerHashSeed, 0x383b7ce8);
    Murmur3.SingleUnit(0x67, PeerHashSeed, 0x528f75db);
    Murmur3.SingleUnit(0x6b, KeyHashSeed, 0xa11d6b29);
  }
}

=== FILE: localpeer.dfy ===
/** The local peer: get, set and remove over the process's store, each key wrapped in the peer's
    own key type so that the peer's listing of its keys skips every other entry of the store. */
module LocalPeer {
  import opened Wrappers
  import opened Utf16
  import opened Peers

  /** The peer a factory builds for this process. */
  function Create(id: Text, hash: bv32): (p: Peer)
    ensures p.id == id && p.hash == hash && p.kind == Local
  {
    Peer(id, hash, Local)
  }

  function Get(store: Store, key: Text): (r: Option<CacheValue>)
    ensures r.Some? <==> PeerKey(key) in store
    ensures r.Some? ==> r.value == store[PeerKey(key)]
  {
    if PeerKey(key) in store then Some(store[PeerKey(key)]) else None
  }

  /** Stores the bytes stamped with the clock reading `now`, replacing any earlier entry. */
  function Set(store: Store, key: Text, value: seq<Byte>, now: int): (s: Store)
    ensures PeerKey(key) in s && s[PeerKey(key)] == CacheValue(value, now)
    ensures forall k :: k != PeerKey(key) ==> (k in s <==> k in store)
    ensures forall k :: k != PeerKey(key) && k in store ==> s[k] == store[k]
  {
    store[PeerKey(key) := CacheValue(value, now)]
  }

  /** Drops the entry if there is one; an absent key leaves the store as it is. */
  function Remove(store: Store, key: Text): (s: Store)
    ensures PeerKey(key) !in s
    ensures forall k :: k != PeerKey(key) ==> (k in s <==> k in store)
    ensures forall k :: k in s ==> s[k] == store[k]
    ensures PeerKey(key) !in store ==> s == store
  {
    store - {PeerKey(key)}
  }

  /** The keys written through a local peer; entries under other key types are filtered out. */
  function CachedKeys(store: Store): (keys: set<Text>)
    ensures forall key :: key in keys <==> PeerKey(key) in store
  {
    set sk | sk in store && sk.PeerKey? :: sk.key
  }

  /** Disposing a local peer releases nothing: the store is the process's, not the peer's. */
  function Dispose(store: Store): (s: Store)
    ensures s == store
  {
    store
  }

  lemma GetAbsent(store: Store, key: Text)
    requires key !in CachedKeys(store)
    ensures Get(store, key) == None
  {
  }

  /** Set then Get returns the same bytes, stamped with the time of the set. */
  lemma GetAfterSet(store: Store, key: Text, value: seq<Byte>, now: int)
    ensures Get(Set(store, key, value, now), key) == Some(CacheValue(value, now))
  {
  }

  /** Writes to one key are invisible at every other key. */
  lemma GetAfterSetOther(store: Store, key: Text, other: Text, value: seq<Byte>, now: int)
    requires other != key
    ensures Get(Set(store, key, value, now), other) == Get(store, other)
  {
  }

  lemma GetAfterRemove(store: Store, key: Text)
    ensures Get(Remove(store, key), key) == None
  {
  }

  /** Removing an absent key changes nothing, and removing twice is removing once. */
  lemma RemoveIdempotent(store: Store, key: Text)
    ensures Remove(Remove(store, key), key) == Remove(store, key)
  {
  }

  lemma CachedKeysAfterSet(store: Store, key: Text, value: seq<Byte>, now: int)
    ensures CachedKeys(Set(store, key, value, now)) == CachedKeys(store) + {key}
  {
  }

  lemma CachedKeysAfterRemove(store: Store, key: Text)
    ensures CachedKeys(Remove(store, key)) == CachedKeys(store) - {key}
  {
  }

  /** Entries other components put in the shared store are never touched by a local peer. */
  lemma OtherEntriesUntouched(store: Store, key: Text, value: seq<Byte>, now: int, name: string)
    ensures OtherKey(name) in Set(store, key, value, now) <==> OtherKey(name) in store
    ensures OtherKey(name) in Remove(store, key) <==> OtherKey(name) in store
  {
  }
}

=== FILE: murmur3.dfy ===
/** MurmurHash3 x86_32 over UTF-16 code units, keeping only the low byte of each unit
    (IDCC.Cache/Hashing/Murmur3.cs). */
module Murmur3 {
  import opened Utf16

  /** The per-word scramble: multiply, rotate left by 15, multiply. */
  function Scramble(k: bv32): bv32 {
    var k1 := k * 0xcc9e2d51;
    var k2 := (k1 << 15) | (k1 >> 17);
    k2 * 0x1b873593
  }

  /** The low byte of a code unit, widened to a word. */
  function LowByte(u: CodeUnit): bv32 {
    (u & 0xff) as bv32
  }

  /** The little-endian word packed from the four units starting at `i`. */
  function Word(data: Text, i: nat): bv32
    requires i + 4 <= |data|
  {
    Pack(data[i], data[i + 1], data[i + 2], data[i + 3])
  }

  /** Four code units packed little-endian, low byte of each. */
  function Pack(u0: CodeUnit, u1: CodeUnit, u2: CodeUnit, u3: CodeUnit): bv32 {
    LowByte(u0) | (LowByte(u1) << 8) | (LowByte(u2) << 16) | (LowByte(u3) << 24)
  }

  /** One body round: xor in the scrambled word, rotate left by 13, multiply by 5 and add. */
  function Mix(hash: bv32, k: bv32): bv32 {
    var h1 := hash ^ Scramble(k);
    var h2 := (h1 << 13) | (h1 >> 19);
    h2 * 5 + 0xe6546b64
  }

  /** The hash after the first `n` whole blocks, starting from `seed`. */
  function Body(data: Text, seed: bv32, n: nat): bv32
    requires 4 * n <= |data|
  {
    if n == 0 then seed else Mix(Body(data, seed, n - 1), Word(data, 4 * (n - 1)))
  }

  /** The partial word packed from the 0-3 units after the last whole block. */
  function TailWord(data: Text): bv32 {
    Partial(data, |data| - |data| % 4, |data| % 4)
  }

  /** The `r` units from `i` packed little-endian into a word; a zero count packs to zero. */
  function Partial(data: Text, i: nat, r: nat): bv32
    requires i + r <= |data|
  {
    match r
    case 3 => LowByte(data[i]) | (LowByte(data[i + 1]) << 8) | (LowByte(data[i + 2]) << 16)
    case 2 => LowByte(data[i]) | (LowByte(data[i + 1]) << 8)
    case 1 => LowByte(data[i])
    case _ => 0
  }

  /** The fmix32 finaliser: xor-shift 16, multiply, xor-shift 13, multiply, xor-shift 16. */
  function FMix(h: bv32): bv32 {
    var h1 := h ^ (h >> 16);
    var h2 := h1 * 0x85ebca6b;
    var h3 := h2 ^ (h2 >> 13);
    var h4 := h3 * 0xc2b2ae35;
    h4 ^ (h4 >> 16)
  }

  /** The low 32 bits of `n`, as an unchecked `(uint)` cast keeps them. The word is built bit by
      bit in 32-bit arithmetic, whose shifts drop the same high bits a cast would. */
  function Low32(n: nat): bv32 {
    if n == 0 then 0 else (Low32(n / 2) << 1) | (if n % 2 == 1 then 1 else 0)
  }

  /** The hash of a code-unit sequence: whole blocks through the body, the tail scrambled and
      xored in without a body round, the length xored in, then the finaliser. The empty input is
      special-cased to 0 whatever the seed. */
  function Compute(data: Text, seed: bv32): bv32 {
    if |data| == 0 then 0
    else Finish(Body(data, seed, |data| / 4), TailWord(data), Low32(|data|))
  }

  /** The steps after the body: xor in the scrambled tail word and the length, then finalise. */
  function Finish(body: bv32, tail: bv32, length: bv32): bv32 {
    FMix(body ^ Scramble(tail) ^ length)
  }

  /** The source's loop: one index walks the units and each word is packed in place, then a
      switch on the 0-3 remaining units builds the tail word. It computes the block-structured
      definition above. */
  method ComputeIterative(data: Text, seed: bv32) returns (hash: bv32)
    ensures hash == Compute(data, seed)
  {
    var length := |data|;
    if length == 0 {
      return 0;
    }
    hash := seed;
    var remainingBytes := length % 4;
    var iterationLen := length - remainingBytes;
    var i := 0;
    ghost var blocks := 0;
    while i < iterationLen
      invariant i == 4 * blocks && i <= iterationLen
      invariant hash == Body(data, seed, blocks)
    {
      var k := Pack(data[i], data[i + 1], data[i + 2], data[i + 3]);
      NextBlock(data, seed, blocks, hash, k);
      hash := Mix(hash, k);
      i := i + 4;
      blocks := blocks + 1;
    }
    assert i == |data| - |data| % 4 && blocks == |data| / 4;
    var k := Partial(data, i, remainingBytes);
    Finalise(data, seed, hash, k);
    hash := Finish(hash, k, Low32(length));
  }

  /** One more whole block is one more body round. */
  lemma NextBlock(data: Text, seed: bv32, n: nat, hash: bv32, k: bv32)
    requires 4 * n + 4 <= |data|
    requires Body(data, seed, n) == hash && Word(data, 4 * n) == k
    ensures Body(data, seed, n + 1) == Mix(hash, k)
  {
  }

  lemma WordOfPrefix(a: Text, b: Text, i: nat)
    requires i + 4 <= |a|
    ensures Word(a + b, i) == Word(a, i)
  {
    assert (a + b)[i] == a[i] && (a + b)[i + 1] == a[i + 1];
    assert (a + b)[i + 2] == a[i + 2] && (a + b)[i + 3] == a[i + 3];
  }

  lemma WordOfSuffix(a: Text, b: Text, i: nat)
    requires i + 4 <= |b|
    ensures Word(a + b, |a| + i) == Word(b, i)
  {
    assert (a + b)[|a| + i] == b[i] && (a + b)[|a| + i + 1] == b[i + 1];
    assert (a + b)[|a| + i + 2] == b[i + 2] && (a + b)[|a| + i + 3] == b[i + 3];
  }

  /** The body after `n` blocks reads only the first `4 * n` units. */
  lemma {:induction false} BodyOfPrefix(a: Text, b: Text, seed: bv32, n: nat)
    requires 4 * n <= |a|
    ensures Body(a + b, seed, n) == Body(a, seed, n)
  {
    if n > 0 {
      BodyOfPrefix(a, b, seed, n - 1);
      WordOfPrefix(a, b, 4 * (n - 1));
    }
  }

  /** The input is consumed block by block: hashing whole blocks `a` then `b` is hashing `b`
      from the state `a` left behind. */
  lemma {:induction false} BodyOfAppend(a: Text, b: Text, seed: bv32, m: nat)
    requires |a| % 4 == 0 && 4 * m <= |b|
    ensures Body(a + b, seed, |a| / 4 + m) == Body(b, Body(a, seed, |a| / 4), m)
  {
    if m == 0 {
      BodyOfPrefix(a, b, seed, |a| / 4);
    } else {
      BodyOfAppend(a, b, seed, m - 1);
      WordOfSuffix(a, b, 4 * (m - 1));
      assert 4 * (|a| / 4 + m - 1) == |a| + 4 * (m - 1);
    }
  }

  /** The tail word reads only the units after the last whole block. */
  lemma TailWordOfAppend(a: Text, b: Text)
    requires |a| % 4 == 0
    ensures TailWord(a + b) == TailWord(b)
  {
    var i := |b| - |b| % 4;
    assert |a + b| % 4 == |b| % 4;
    if |b| % 4 >= 1 { assert (a + b)[|a| + i] == b[i]; }
    if |b| % 4 >= 2 { assert (a + b)[|a| + i + 1] == b[i + 1]; }
    if |b| % 4 == 3 { assert (a + b)[|a| + i + 2] == b[i + 2]; }
  }

  /** One whole leading block advances the body by one round. */
  lemma LeadingBlock(c: Text, rest: Text, hash: bv32, m: nat, next: bv32)
    requires |c| == 4 && 4 * m <= |rest|
    requires Mix(hash, Word(c, 0)) == next
    ensures Body(c + rest, hash, 1 + m) == Body(rest, next, m)
  {
    BodyOfAppend(c, rest, hash, m);
  }

  /** Two equal-length inputs whose units agree in the low byte. */
  predicate SameLowBytes(a: Text, b: Text) {
    |a| == |b| && forall i :: 0 <= i < |a| ==> LowByte(a[i]) == LowByte(b[i])
  }

  lemma WordOfLowBytes(a: Text, b: Text, i: nat)
    requires SameLowBytes(a, b) && i + 4 <= |a|
    ensures Word(a, i) == Word(b, i)
  {
    var x0, x1, x2, x3 := LowByte(a[i]), LowByte(a[i + 1]), LowByte(a[i + 2]), LowByte(a[i + 3]);
    assert x0 == LowByte(b[i]) && x1 == LowByte(b[i + 1]) && x2 == LowByte(b[i + 2]) && x3 == LowByte(b[i + 3]);
  }

  lemma {:induction false} BodyOfLowBytes(a: Text, b: Text, seed: bv32, n: nat)
    requires SameLowBytes(a, b) && 4 * n <= |a|
    ensures Body(a, seed, n) == Body(b, seed, n)
  {
    if n > 0 {
      BodyOfLowBytes(a, b, seed, n - 1);
      WordOfLowBytes(a, b, 4 * (n - 1));
    }
  }

  lemma TailWordOfLowBytes(a: Text, b: Text)
    requires SameLowBytes(a, b)
    ensures TailWord(a) == TailWord(b)
  {
    PartialOfLowBytes(a, b, |a| - |a| % 4, |a| % 4);
  }

  lemma PartialOfLowBytes(a: Text, b: Text, i: nat, r: nat)
    requires SameLowBytes(a, b) && i + r <= |a|
    ensures Partial(a, i, r) == Partial(b, i, r)
  {
    if r == 3 {
      assert LowByte(a[i]) == LowByte(b[i]) && LowByte(a[i + 1]) == LowByte(b[i + 1]);
      assert LowByte(a[i + 2]) == LowByte(b[i + 2]);
    } else if r == 2 {
      assert LowByte(a[i]) == LowByte(b[i]) && LowByte(a[i + 1]) == LowByte(b[i + 1]);
    } else if r == 1 {
      assert LowByte(a[i]) == LowByte(b[i]);
    }
  }

  /** Only the low 8 bits of each code unit matter: inputs of equal length that agree modulo 256
      unit by unit hash equally under every seed. */
  lemma LowBytesOnly(a: Text, b: Text, seed: bv32)
    requires SameLowBytes(a, b)
    ensures Compute(a, seed) == Compute(b, seed)
  {
    if |a| > 0 {
      BodyOfLowBytes(a, b, seed, |a| / 4);
      TailWordOfLowBytes(a, b);
      Finalise(a, seed, Body(a, seed, |a| / 4), TailWord(a));
      Finalise(b, seed, Body(a, seed, |a| / 4), TailWord(a));
    }
  }

  /** The scramble of the zero word is zero, so for an input of whole blocks the tail word is
      zero and the tail step `hash ^= Scramble(k)` leaves the body's hash unchanged. */
  lemma WholeBlocksSkipTail(data: Text, seed: bv32, body: bv32)
    requires |data| > 0 && |data| % 4 == 0
    requires Body(data, seed, |data| / 4) == body
    ensures TailWord(data) == 0 && body ^ Scramble(TailWord(data)) == body
    ensures Compute(data, seed) == Finish(body, 0, Low32(|data|))
  {
    assert TailWord(data) == 0;
    assert Scramble(0) == 0;
    Finalise(data, seed, body, 0);
  }

  /** The last step of `Compute`, once the body and the tail word are known. */
  lemma Finalise(data: Text, seed: bv32, body: bv32, tail: bv32)
    requires |data| > 0
    requires Body(data, seed, |data| / 4) == body && TailWord(data) == tail
    ensures Compute(data, seed) == Finish(body, tail, Low32(|data|))
  {
  }

  /** The empty input hashes to 0 whatever the seed. */
  lemma EmptyInput(seed: bv32)
    ensures Compute([], seed) == 0
  {
  }

  /** A one-unit input has no whole block: its hash is the seed finished with that unit's low
      byte as the tail word and a length of 1. */
  lemma SingleUnit(u: CodeUnit, seed: bv32, expected: bv32)
    requires Finish(seed, LowByte(u), 1) == expected
    ensures Compute([u], seed) == expected
  {
    assert TailWord([u]) == LowByte(u);
    assert Low32(1) == 1;
    Finalise([u], seed, seed, LowByte(u));
  }

  /** A block that ends the input advances the body by one final round. */
  lemma LastBlock(c: Text, hash: bv32, next: bv32)
    requires |c| == 4
    requires Mix(hash, Word(c, 0)) == next
    ensures Body(c, hash, 1) == next
  {
  }

  /** The code units of "test". */
  const Test: Text := [0x74, 0x65, 0x73, 0x74]

  /** Reference vector: "test" under seed 0x9747b28c hashes to 0x704b81dc. */
  lemma TestVector()
    ensures Compute(Test, 0x9747b28c) == 0x704b81dc
  {
    TestSteps(Test);
  }

  lemma TestSteps(data: Text)
    requires data == [0x74, 0x65, 0x73, 0x74]
    ensures Compute(data, 0x9747b28c) == 0x704b81dc
  {
    LastBlock([0x74, 0x65, 0x73, 0x74], 0x9747b28c, 0x74736e13);
    Finalise(data, 0x9747b28c, 0x74736e13, 0x0);
    assert Finish(0x74736e13, 0x0, Low32(4)) == 0x704b81dc;
  }

  /** The code units of "Hello, world!". */
  const HelloWorld: Text := [0x48, 0x65, 0x6c, 0x6c] + ([0x6f, 0x2c, 0x20, 0x77] + ([0x6f, 0x72, 0x6c, 0x64] + ([0x21])))

  /** Reference vector: "Hello, world!" under seed 0x9747b28c hashes to 0x24884cba. */
  lemma HelloWorldVector()
    ensures Compute(HelloWorld, 0x9747b28c) == 0x24884cba
  {
    HelloWorldSteps(HelloWorld);
  }

  lemma HelloWorldSteps(data: Text)
    requires data == [0x48, 0x65, 0x6c, 0x6c] + ([0x6f, 0x2c, 0x20, 0x77] + ([0x6f, 0x72, 0x6c, 0x64] + ([0x21])))
    ensures Compute(data, 0x9747b28c) == 0x24884cba
  {
    var rest3: Text := [0x21];
    var rest2: Text := [0x6f, 0x72, 0x6c, 0x64] + rest3;
    var rest1: Text := [0x6f, 0x2c, 0x20, 0x77] + rest2;
    var rest0: Text := [0x48, 0x65, 0x6c, 0x6c] + rest1;
    LeadingBlock([0x48, 0x65, 0x6c, 0x6c], rest1, 0x9747b28c, 2, 0xdae4c92e);
    LeadingBlock([0x6f, 0x2c, 0x20, 0x77], rest2, 0xdae4c92e, 1, 0x71c6b43c);
    LeadingBlock([0x6f, 0x72, 0x6c, 0x64], rest3, 0x71c6b43c, 0, 0x3bd692af);
    TailWordOfAppend([0x48, 0x65, 0x6c, 0x6c], rest1);
    TailWordOfAppend([0x6f, 0x2c, 0x20, 0x77], rest2);
    TailWordOfAppend([0x6f, 0x72, 0x6c, 0x64], rest3);
    assert |data| == 13;
    Finalise(data, 0x9747b28c, 0x3bd692af, 0x21);
    assert Low32(13) == 13;
    assert Finish(0x3bd692af, 0x21, 13) == 0x24884cba;
  }

  /** The code units of "The quick brown fox jumps over the lazy dog". */
  const QuickBrownFox: Text := [0x54, 0x68, 0x65, 0x20] + ([0x71, 0x75, 0x69, 0x63] + ([0x6b, 0x20, 0x62, 0x72] + ([0x6f, 0x77, 0x6e, 0x20] + ([0x66, 0x6f, 0x78, 0x20] + ([0x6a, 0x75, 0x6d, 0x70] + ([0x73, 0x20, 0x6f, 0x76] + ([0x65, 0x72, 0x20, 0x74] + ([0x68, 0x65, 0x20, 0x6c] + ([0x61, 0x7a, 0x79, 0x20] + ([0x64, 0x6f, 0x67]))))))))))

  /** Reference vector: "The quick brown fox jumps over the lazy dog" under seed 0x9747b28c hashes to 0x2fa826cd. */
  lemma QuickBrownFoxVector()
    ensures Compute(QuickBrownFox, 0x9747b28c) == 0x2fa826cd
  {
    QuickBrownFoxSteps(QuickBrownFox);
  }

  lemma QuickBrownFoxSteps(data: Text)
    requires data == [0x54, 0x68, 0x65, 0x20] + ([0x71, 0x75, 0x69, 0x63] + ([0x6b, 0x20, 0x62, 0x72] + ([0x6f, 0x77, 0x6e, 0x20] + ([0x66, 0x6f, 0x78, 0x20] + ([0x6a, 0x75, 0x6d, 0x70] + ([0x73, 0x20, 0x6f, 0x76] + ([0x65, 0x72, 0x20, 0x74] + ([0x68, 0x65, 0x20, 0x6c] + ([0x61, 0x7a, 0x79, 0x20] + ([0x64, 0x6f, 0x67]))))))))))
    ensures Compute(data, 0x9747b28c) == 0x2fa826cd
  {
    QuickBrownFoxBody(data);
    QuickBrownFoxTail(data);
    assert |data| == 43;
    Finalise(data, 0x9747b28c, 0x937ba148, 0x676f64);
    assert Low32(43) == 43;
    assert Finish(0x937ba148, 0x676f64, 43) == 0x2fa826cd;
  }

  /** The ten whole blocks of the fox sentence, round by round. */
  lemma QuickBrownFoxBody(data: Text)
    requires data == [0x54, 0x68, 0x65, 0x20] + ([0x71, 0x75, 0x69, 0x63] + ([0x6b, 0x20, 0x62, 0x72] + ([0x6f, 0x77, 0x6e, 0x20] + ([0x66, 0x6f, 0x78, 0x20] + ([0x6a, 0x75, 0x6d, 0x70] + ([0x73, 0x20, 0x6f, 0x76] + ([0x65, 0x72, 0x20, 0x74] + ([0x68, 0x65, 0x20, 0x6c] + ([0x61, 0x7a, 0x79, 0x20] + ([0x64, 0x6f, 0x67]))))))))))
    ensures |data| == 43 && Body(data, 0x9747b28c, 10) == 0x937ba148
  {
    var rest10: Text := [0x64, 0x6f, 0x67];
    var rest9: Text := [0x61, 0x7a, 0x79, 0x20] + rest10;
    var rest8: Text := [0x68, 0x65, 0x20, 0x6c] + rest9;
    var rest7: Text := [0x65, 0x72, 0x20, 0x74] + rest8;
    var rest6: Text := [0x73, 0x20, 0x6f, 0x76] + rest7;
    var rest5: Text := [0x6a, 0x75, 0x6d, 0x70] + rest6;
    var rest4: Text := [0x66, 0x6f, 0x78, 0x20] + rest5;
    var rest3: Text := [0x6f, 0x77, 0x6e, 0x20] + rest4;
    var rest2: Text := [0x6b, 0x20, 0x62, 0x72] + rest3;
    var rest1: Text := [0x71, 0x75, 0x69, 0x63] + rest2;
    var rest0: Text := [0x54, 0x68, 0x65, 0x20] + rest1;
    LeadingBlock([0x54, 0x68, 0x65, 0x20], rest1, 0x9747b28c, 9, 0x57eac45f);
    LeadingBlock([0x71, 0x75, 0x69, 0x63], rest2, 0x57eac45f, 8, 0x7833f620);
    LeadingBlock([0x6b, 0x20, 0x62, 0x72], rest3, 0x7833f620, 7, 0x7d840649);
    LeadingBlock([0x6f, 0x77, 0x6e, 0x20], rest4, 0x7d840649, 6, 0x0af95548);
    LeadingBlock([0x66, 0x6f, 0x78, 0x20], rest5, 0x0af95548, 5, 0x45afabb6);
    LeadingBlock([0x6a, 0x75, 0x6d, 0x70], rest6, 0x45afabb6, 4, 0x690b7f47);
    LeadingBlock([0x73, 0x20, 0x6f, 0x76], rest7, 0x690b7f47, 3, 0x8a1671f0);
    LeadingBlock([0x65, 0x72, 0x20, 0x74], rest8, 0x8a1671f0, 2, 0x108f5319);
    LeadingBlock([0x68, 0x65, 0x20, 0x6c], rest9, 0x108f5319, 1, 0x5946d986);
    LeadingBlock([0x61, 0x7a, 0x79, 0x20], rest10, 0x5946d986, 0, 0x937ba148);
  }

  /** The three units after the last whole block of the fox sentence. */
  lemma QuickBrownFoxTail(data: Text)
    requires data == [0x54, 0x68, 0x65, 0x20] + ([0x71, 0x75, 0x69, 0x63] + ([0x6b, 0x20, 0x62, 0x72] + ([0x6f, 0x77, 0x6e, 0x20] + ([0x66, 0x6f, 0x78, 0x20] + ([0x6a, 0x75, 0x6d, 0x70] + ([0x73, 0x20, 0x6f, 0x76] + ([0x65, 0x72, 0x20, 0x74] + ([0x68, 0x65, 0x20, 0x6c] + ([0x61, 0x7a, 0x79, 0x20] + ([0x64, 0x6f, 0x67]))))))))))
    ensures TailWord(data) == 0x676f64
  {
    var rest10: Text := [0x64, 0x6f, 0x67];
    var rest9: Text := [0x61, 0x7a, 0x79, 0x20] + rest10;
    var rest8: Text := [0x68, 0x65, 0x20, 0x6c] + rest9;
    var rest7: Text := [0x65, 0x72, 0x20, 0x74] + rest8;
    var rest6: Text := [0x73, 0x20, 0x6f, 0x76] + rest7;
    var rest5: Text := [0x6a, 0x75, 0x6d, 0x70] + rest6;
    var rest4: Text := [0x66, 0x6f, 0x78, 0x20] + rest5;
    var rest3: Text := [0x6f, 0x77, 0x6e, 0x20] + rest4;
    var rest2: Text := [0x6b, 0x20, 0x62, 0x72] + rest3;
    var rest1: Text := [0x71, 0x75, 0x69, 0x63] + rest2;
    var rest0: Text := [0x54, 0x68, 0x65, 0x20] + rest1;
    TailWordOfAppend([0x54, 0x68, 0x65, 0x20], rest1);
    TailWordOfAppend([0x71, 0x75, 0x69, 0x63], rest2);
    TailWordOfAppend([0x6b, 0x20, 0x62, 0x72], rest3);
    TailWordOfAppend([0x6f, 0x77, 0x6e, 0x20], rest4);
    TailWordOfAppend([0x66, 0x6f, 0x78, 0x20], rest5);
    TailWordOfAppend([0x6a, 0x75, 0x6d, 0x70], rest6);
    TailWordOfAppend([0x73, 0x20, 0x6f, 0x76], rest7);
    TailWordOfAppend([0x65, 0x72, 0x20, 0x74], rest8);
    TailWordOfAppend([0x68, 0x65, 0x20, 0x6c], rest9);
    TailWordOfAppend([0x61, 0x7a, 0x79, 0x20], rest10);
  }
}

=== FILE: options.dfy ===
/** The cache's settings that the modelled logic reads, with their defaults. */
module CacheOptions {

  datatype Options = Options(
    peerHttps: bool,
    peerPort: int,
    replicationFactor: int,
    minReplicationSuccesses: int)

  const DefaultPeerPort := 5001

  /** Plain http on port 5001, three replicas per key, one success needed. */
  const Defaults := Options(false, DefaultPeerPort, 3, 1)
}

=== FILE: peerfactory.dfy ===
/** The peer factory: checks that the description is of the kind asked for, derives the peer's
    hash from its id, and for a remote peer opens the connection first. */
module PeerFactory {
  import opened Wrappers
  import opened Utf16
  import opened Peers
  import KeyHashing
  import LocalPeer
  import RemotePeer

  const NotLocalMessage := "Peer description is not for a local peer"
  const NotRemoteMessage := "Peer description is not for a remote peer"
  const DescriptionParam := "peerDescription"

  /** Builds the local peer. Every local peer reads and writes the same process-wide store, so
      nothing store-related is built here. */
  function CreateLocal(alg: KeyHashing.Algorithm, desc: PeerDescription): (r: Result<Peer, Error>)
    ensures r.Success? <==> desc.kind == Local
    ensures r.Failure? ==> r.error == ArgumentError(NotLocalMessage, DescriptionParam)
    ensures r.Success? ==> r.value == Peer(desc.id, alg.peerHash(desc.id), Local)
  {
    if desc.kind != Local then Failure(ArgumentError(NotLocalMessage, DescriptionParam))
    else Success(LocalPeer.Create(desc.id, alg.peerHash(desc.id)))
  }

  /** Builds a remote peer once `connect`, the outcome of opening a channel to the description's
      endpoint, is known. The kind is checked before any channel is opened, so a wrong kind is
      reported whatever `connect` would have done; a connect failure propagates as thrown. */
  function CreateRemote(alg: KeyHashing.Algorithm, desc: PeerDescription, connect: Option<Error>): (r: Result<Peer, Error>)
    ensures desc.kind != Remote ==> r == Failure(ArgumentError(NotRemoteMessage, DescriptionParam))
    ensures desc.kind == Remote && connect.Some? ==> r == Failure(connect.value)
    ensures r.Success? <==> desc.kind == Remote && connect.None?
    ensures r.Success? ==> r.value == Peer(desc.id, alg.peerHash(desc.id), Remote)
  {
    if desc.kind != Remote then Failure(ArgumentError(NotRemoteMessage, DescriptionParam))
    else if connect.Some? then Failure(connect.value)
    else Success(RemotePeer.Create(desc.id, alg.peerHash(desc.id)))
  }

  /** Whatever the factory builds is keyed to its description: same id, and the hash the id
      determines, so two descriptions with one id build peers of one hash. */
  lemma CreatedPeersAgreeOnHash(alg: KeyHashing.Algorithm, a: PeerDescription, b: PeerDescription, connect: Option<Error>)
    requires a.id == b.id
    requires CreateLocal(alg, a).Success? && CreateRemote(alg, b, connect).Success?
    ensures CreateLocal(alg, a).value.hash == CreateRemote(alg, b, connect).value.hash
    ensures CreateLocal(alg, a).value.id == CreateRemote(alg, b, connect).value.id
  {
  }
}

=== FILE: peers.dfy ===
/** The shapes every peer shares: its description as discovery reports it, the peer itself (id,
    hash, whether it is this process or another one), the cached value record with its size
    estimate, the errors the core raises, and the process-wide store local peers write to. */
module Peers {
  import opened Wrappers
  import opened Utf16

  type Byte = bv8

  datatype PeerKind = Local | Remote

  /** The peer's endpoint URI: scheme, host and port. */
  datatype Endpoint = Endpoint(scheme: string, host: string, port: int)

  datatype PeerDescription = PeerDescription(id: Text, endpoint: Endpoint, kind: PeerKind)

  /** A peer as the registry holds it. `Local` peers read and write this process's store;
      `Remote` peers reach another process over the transport. */
  datatype Peer = Peer(id: Text, hash: bv32, kind: PeerKind)

  /** A cached value and the time it was stamped, in clock ticks. */
  datatype CacheValue = CacheValue(value: seq<Byte>, createdAt: int)

  /** The approximate footprint in bytes: an object header of two native words, one native word
      for the array reference, the array's bytes and an 8-byte timestamp. The native word size
      (`IntPtr.Size`, 4 or 8) is the platform's. */
  function GetSize(v: CacheValue, intPtrSize: nat): (size: int)
    requires intPtrSize == 4 || intPtrSize == 8
    ensures size > |v.value|
    ensures intPtrSize == 8 ==> size == |v.value| + 32
    ensures intPtrSize == 4 ==> size == |v.value| + 20
  {
    2 * intPtrSize + intPtrSize + |v.value| + 8
  }

  /** One more byte of value is exactly one more byte of estimate. */
  lemma GetSizeGrowsByOne(v: CacheValue, b: Byte, intPtrSize: nat)
    requires intPtrSize == 4 || intPtrSize == 8
    ensures GetSize(CacheValue(v.value + [b], v.createdAt), intPtrSize) == GetSize(v, intPtrSize) + 1
  {
  }

  /** The exceptions of the core. `Transport` stands for whatever the transport or the connect
      call threw, cancellation included; `TaskFault` is the wrapper a faulted task puts around
      the exception it ended with; `UriFormat` is the URI type rejecting a malformed URI. */
  datatype Error =
    | CacheError(message: string, cause: Option<Error>)
    | ArgumentError(message: string, paramName: string)
    | AggregateError(message: string, inner: seq<Error>)
    | Transport(reason: string)
    | TaskFault(fault: Error)
    | UriFormat(reason: string)

  /** The process's memory cache, shared by every local peer. Entries written through a local
      peer sit under `PeerKey`; anything else another component put there sits under `OtherKey`. */
  datatype StoreKey = PeerKey(key: Text) | OtherKey(name: string)

  type Store = map<StoreKey, CacheValue>
}

=== FILE: peerservice.dfy ===
/** The server side of the peer protocol: each request is served from the registry's local peer,
    and when this process has none yet, reads miss and writes are dropped while still reporting
    success. */
module PeerService {
  import opened Wrappers
  import opened Utf16
  import opened Peers
  import opened Protocol
  import LocalPeer
  import RemotePeer

  /** Serves one request against the store. `now` is the server clock, used when a set stamps
      the stored value. Returns the reply and the store after the request. */
  function Handle(localPeer: Option<Peer>, store: Store, req: Request, now: int): (out: (Reply, Store))
    ensures req.GetRequest? ==> out.0.GetReply? && out.1 == store
    ensures req.SetRequest? ==> out.0 == SetReply
    ensures req.RemoveRequest? ==> out.0 == RemoveReply
    ensures localPeer.None? ==> out.1 == store
    ensures localPeer.None? && req.GetRequest? ==> out.0 == GetReply(None, None)
    ensures localPeer.Some? && req.GetRequest? ==>
      match LocalPeer.Get(store, req.key)
      case None => out.0 == GetReply(None, None)
      case Some(v) => out.0 == GetReply(Some(v.value), Some(v.createdAt))
    ensures localPeer.Some? && req.SetRequest? ==> out.1 == LocalPeer.Set(store, req.key, req.value, now)
    ensures localPeer.Some? && req.RemoveRequest? ==> out.1 == LocalPeer.Remove(store, req.key)
  {
    match req
    case GetRequest(key) =>
      if localPeer.None? then (GetReply(None, None), store)
      else
        (match LocalPeer.Get(store, key)
         case None => (GetReply(None, None), store)
         case Some(v) => (GetReply(Some(v.value), Some(v.createdAt)), store))
    case SetRequest(key, value) =>
      if localPeer.Some? then (SetReply, LocalPeer.Set(store, key, value, now)) else (SetReply, store)
    case RemoveRequest(key) =>
      if localPeer.Some? then (RemoveReply, LocalPeer.Remove(store, key)) else (RemoveReply, store)
  }

  /** End to end: a remote get that reaches a server with a local peer returns the server's bytes
      for the key, stamped with the caller's receipt time rather than the server's timestamp; a
      server without a local peer always answers with a miss. */
  lemma RemoteGetThroughService(localPeer: Option<Peer>, store: Store, key: Text, serverNow: int, receivedAt: int)
    ensures var reply := Handle(localPeer, store, RemotePeer.RequestFor(RemotePeer.GetOp(key)), serverNow).0;
      var r := RemotePeer.Get(Delivered(Some(reply)), receivedAt);
      r.Success? &&
      (localPeer.None? ==> r.value == None) &&
      (localPeer.Some? ==> r.value == (match LocalPeer.Get(store, key)
                                       case None => None
                                       case Some(v) => Some(CacheValue(v.value, receivedAt))))
  {
  }

  /** End to end: a remote set that reaches a server with a local peer leaves the bytes readable
      there, stamped with the server's clock; the caller sees success either way. */
  lemma RemoteSetThroughService(localPeer: Option<Peer>, store: Store, key: Text, value: seq<Byte>, serverNow: int)
    ensures var out := Handle(localPeer, store, RemotePeer.RequestFor(RemotePeer.SetOp(key, value)), serverNow);
      RemotePeer.Set(Delivered(Some(out.0))).Success? &&
      (localPeer.Some? ==> LocalPeer.Get(out.1, key) == Some(CacheValue(value, serverNow))) &&
      (localPeer.None? ==> out.1 == store)
  {
  }

  /** End to end: a remote remove that reaches a server with a local peer leaves the key absent
      there; the caller sees success either way. */
  lemma RemoteRemoveThroughService(localPeer: Option<Peer>, store: Store, key: Text, serverNow: int)
    ensures var out := Handle(localPeer, store, RemotePeer.RequestFor(RemotePeer.RemoveOp(key)), serverNow);
      RemotePeer.Remove(Delivered(Some(out.0))).Success? &&
      (localPeer.Some? ==> LocalPeer.Get(out.1, key) == None) &&
      (localPeer.None? ==> out.1 == store)
  {
  }
}

=== FILE: protocol.dfy ===
/** The peer-to-peer service's messages and the abstract transport that carries them. */
module Protocol {
  import opened Wrappers
  import opened Utf16
  import opened Peers

  datatype Request =
    | GetRequest(key: Text)
    | SetRequest(key: Text, value: seq<Byte>)
    | RemoveRequest(key: Text)

  /** A get reply carries the stored bytes and their timestamp, or neither on a miss. */
  datatype Reply =
    | GetReply(value: Option<seq<Byte>>, createdAt: Option<int>)
    | SetReply
    | RemoveReply

  /** What one call over the transport did: it delivered the server's reply (`None` for an absent
      reply object), or it threw, cancellation included. */
  datatype CallResult = Delivered(reply: Option<Reply>) | Threw(cause: Error)
}

=== FILE: registry.dfy ===
/** The peer registry: an immutable snapshot of the discovered peers plus the peer for this
    process, the replica choice for a key, and the three discovery events that replace the
    snapshot. The migration sweep that runs when peers arrive is given both as the source writes
    it (every candidate ranked by the local peer's hash) and as evidently intended (each
    candidate ranked by its own hash). */
module PeersRegistry {
  import opened Wrappers
  import opened Utf16
  import opened Peers
  import opened StableSort
  import KeyHashing
  import PeerFactory
  import LocalPeer

  const NoPeersMessage := "No peers available"

  /** The snapshot of peers in discovery order and, once self discovery has happened, this
      process's own peer. */
  datatype Registry = Registry(peers: seq<Peer>, localPeer: Option<Peer>)

  const Empty := Registry([], None)

  /** What every transition keeps: each peer's hash is the one its id determines, every local
      entry of the snapshot is the registry's local peer, and that peer appears at most once. */
  predicate Valid(alg: KeyHashing.Algorithm, reg: Registry) {
    (forall p :: p in reg.peers ==> p.hash == alg.peerHash(p.id))
    && (forall p :: p in reg.peers && p.kind == Local ==> reg.localPeer == Some(p))
    && (reg.localPeer.Some? ==>
          reg.localPeer.value.kind == Local
          && reg.localPeer.value.hash == alg.peerHash(reg.localPeer.value.id)
          && multiset(reg.peers)[reg.localPeer.value] <= 1)
  }

  lemma EmptyIsValid(alg: KeyHashing.Algorithm)
    ensures Valid(alg, Empty)
  {
  }

  /** A peer's rank for a key: the combined hash of its own hash and the key's. */
  function KeyRank(alg: KeyHashing.Algorithm, key: Text, p: Peer): int {
    alg.combinedHash(p.hash, alg.keyHash(key))
  }

  function RankFor(alg: KeyHashing.Algorithm, key: Text): Peer -> int {
    p => KeyRank(alg, key, p)
  }

  function Min(a: int, b: int): int {
    if a < b then a else b
  }

  /** The replicas for a key: the snapshot stably sorted by descending rank, cut to the
      replication factor. An empty snapshot is an error. */
  function PeersForKey(alg: KeyHashing.Algorithm, reg: Registry, key: Text, replicationFactor: int): (r: Result<seq<Peer>, Error>)
    ensures r.Failure? <==> |reg.peers| == 0
    ensures r.Failure? ==> r.error == CacheError(NoPeersMessage, None)
    ensures r.Success? ==>
      |r.value| == if replicationFactor <= 0 then 0 else Min(replicationFactor, |reg.peers|)
    ensures r.Success? ==> multiset(r.value) <= multiset(reg.peers)
    ensures r.Success? ==> Descending(r.value, RankFor(alg, key))
  {
    if |reg.peers| == 0 then Failure(CacheError(NoPeersMessage, None))
    else
      var sorted := Sort(reg.peers, RankFor(alg, key));
      SortLength(reg.peers, RankFor(alg, key));
      SortDescending(reg.peers, RankFor(alg, key));
      TakeOfDescending(sorted, RankFor(alg, key), replicationFactor);
      Success(Take(sorted, replicationFactor))
  }

  /** The choice is the top of the ranking: a snapshot peer left out ranks no higher than any
      chosen one. */
  lemma PeersForKeyTopRanked(alg: KeyHashing.Algorithm, reg: Registry, key: Text, replicationFactor: int, p: Peer, q: Peer)
    requires PeersForKey(alg, reg, key, replicationFactor).Success?
    requires p in PeersForKey(alg, reg, key, replicationFactor).value
    requires q in reg.peers && q !in PeersForKey(alg, reg, key, replicationFactor).value
    ensures KeyRank(alg, key, p) >= KeyRank(alg, key, q)
  {
    var s := Sort(reg.peers, RankFor(alg, key));
    var chosen := Take(s, replicationFactor);
    assert chosen == PeersForKey(alg, reg, key, replicationFactor).value;
    SortMembers(reg.peers, RankFor(alg, key), q);
    SortDescending(reg.peers, RankFor(alg, key));
    InTake(s, q, replicationFactor);
    var i :| 0 <= i < |chosen| && chosen[i] == p;
    var j := FirstIndex(s, q);
    assert s[i] == p && i < j;
    assert RankFor(alg, key)(s[i]) >= RankFor(alg, key)(s[j]);
  }

  /** Stability: among chosen peers of equal rank the snapshot order is kept, and they are the
      first peers of that rank in the snapshot. */
  lemma PeersForKeyKeepsTieOrder(alg: KeyHashing.Algorithm, reg: Registry, key: Text, replicationFactor: int, v: int)
    requires PeersForKey(alg, reg, key, replicationFactor).Success?
    ensures Ties(PeersForKey(alg, reg, key, replicationFactor).value, RankFor(alg, key), v) <= Ties(reg.peers, RankFor(alg, key), v)
  {
    var s := Sort(reg.peers, RankFor(alg, key));
    var chosen := Take(s, replicationFactor);
    assert s == chosen + s[|chosen|..];
    TiesAppend(chosen, s[|chosen|..], RankFor(alg, key), v);
    SortStable(reg.peers, RankFor(alg, key), v);
  }

  /** The sequence without the element at `i`. */
  function RemoveAt<T>(s: seq<T>, i: nat): (r: seq<T>)
    requires i < |s|
    ensures |r| == |s| - 1
    ensures multiset(r) + multiset{s[i]} == multiset(s)
    ensures forall j :: 0 <= j < i ==> r[j] == s[j]
    ensures forall j :: i <= j < |r| ==> r[j] == s[j + 1]
  {
    assert s == s[..i] + [s[i]] + s[i + 1..];
    s[..i] + s[i + 1..]
  }

  /** The sequence without the first occurrence of `x`, as a list removal does; unchanged when
      `x` is absent. */
  function RemoveFirst<T(==)>(s: seq<T>, x: T): (r: seq<T>)
    ensures multiset(r) == multiset(s) - multiset{x}
    ensures x !in s ==> r == s
  {
    if x in s then RemoveAt(s, FirstIndex(s, x)) else s
  }

  /** Self discovery: the factory builds the local peer (a description of the wrong kind is an
      error and changes nothing); the previous local peer leaves the snapshot, the other peers
      keep their order, and the new one is appended. */
  function OnSelfDiscovered(alg: KeyHashing.Algorithm, reg: Registry, self: PeerDescription): (r: Result<Registry, Error>)
    ensures r.Failure? <==> self.kind != Local
    ensures r.Failure? ==> r.error == ArgumentError(PeerFactory.NotLocalMessage, PeerFactory.DescriptionParam)
    ensures r.Success? ==>
      var made := Peer(self.id, alg.peerHash(self.id), Local);
      r.value.localPeer == Some(made)
      && |r.value.peers| > 0 && r.value.peers[|r.value.peers| - 1] == made
      && multiset(r.value.peers) ==
         (if reg.localPeer.Some? then multiset(reg.peers) - multiset{reg.localPeer.value} else multiset(reg.peers))
         + multiset{made}
      && Subsequence(r.value.peers[..|r.value.peers| - 1], reg.peers)
  {
    var created := PeerFactory.CreateLocal(alg, self);
    if created.Failure? then Failure(created.error)
    else
      var rest := if reg.localPeer.Some? then RemoveFirst(reg.peers, reg.localPeer.value) else reg.peers;
      SubsequenceOfRemoveFirst(reg.peers, if reg.localPeer.Some? then reg.localPeer.value else created.value);
      SubsequenceRefl(reg.peers);
      assert (rest + [created.value])[..|rest|] == rest;
      Success(Registry(rest + [created.value], Some(created.value)))
  }

  /** Self discovery keeps the registry valid, leaves every remote peer where it was counted, and
      leaves exactly one local entry, the new peer, at the end of the snapshot. */
  lemma SelfDiscoveredKeepsValid(alg: KeyHashing.Algorithm, reg: Registry, self: PeerDescription)
    requires Valid(alg, reg) && self.kind == Local
    ensures var next := OnSelfDiscovered(alg, reg, self).value;
      Valid(alg, next)
      && (forall p: Peer :: p.kind == Remote ==> multiset(next.peers)[p] == multiset(reg.peers)[p])
      && (forall i :: 0 <= i < |next.peers| - 1 ==> next.peers[i].kind == Remote)
  {
    var made := PeerFactory.CreateLocal(alg, self).value;
    var rest := if reg.localPeer.Some? then RemoveFirst(reg.peers, reg.localPeer.value) else reg.peers;
    var next := OnSelfDiscovered(alg, reg, self).value;
    assert next == Registry(rest + [made], Some(made));
    NoLocalLeft(alg, reg, rest);
    AppendedLocalKeepsValid(alg, reg, rest, made);
    RemoteCountsKept(reg, rest, made);
  }

  /** Appending a freshly made local peer to a snapshot of valid remote peers gives a valid
      registry whose only local entry is the last one. */
  lemma AppendedLocalKeepsValid(alg: KeyHashing.Algorithm, reg: Registry, rest: seq<Peer>, made: Peer)
    requires forall p :: p in rest ==> p.kind == Remote && p.hash == alg.peerHash(p.id)
    requires made.kind == Local && made.hash == alg.peerHash(made.id)
    ensures Valid(alg, Registry(rest + [made], Some(made)))
    ensures forall i :: 0 <= i < |rest + [made]| - 1 ==> (rest + [made])[i].kind == Remote
  {
    var peers := rest + [made];
    assert made !in rest;
    assert multiset(peers)[made] == 1;
    forall i | 0 <= i < |peers| - 1
      ensures peers[i].kind == Remote
    {
      assert peers[i] == rest[i];
    }
  }

  /** Only a local entry is taken out and a local one added, so every remote peer is counted as
      often as before. */
  lemma RemoteCountsKept(reg: Registry, rest: seq<Peer>, made: Peer)
    requires rest == if reg.localPeer.Some? then RemoveFirst(reg.peers, reg.localPeer.value) else reg.peers
    requires reg.localPeer.Some? ==> reg.localPeer.value.kind == Local
    requires made.kind == Local
    ensures forall p: Peer :: p.kind == Remote ==> multiset(rest + [made])[p] == multiset(reg.peers)[p]
  {
  }

  /** Once the previous local peer is taken out, only remote peers are left. */
  lemma NoLocalLeft(alg: KeyHashing.Algorithm, reg: Registry, rest: seq<Peer>)
    requires Valid(alg, reg)
    requires rest == if reg.localPeer.Some? then RemoveFirst(reg.peers, reg.localPeer.value) else reg.peers
    ensures forall p :: p in rest ==> p.kind == Remote && p in reg.peers && p.hash == alg.peerHash(p.id)
  {
    if reg.localPeer.Some? {
      assert multiset(rest)[reg.localPeer.value] == 0;
    }
    forall p | p in rest
      ensures p.kind == Remote && p in reg.peers
    {
      assert multiset(rest)[p] > 0;
    }
  }

  /** The two rankings the migration sweep can use. `AsWritten` ranks every candidate by the
      local peer's own hash, as the source does; `ByPeerHash` ranks each candidate by its own
      hash, as the replica choice for reads and writes does. */
  datatype SweepRanking = AsWritten | ByPeerHash

  /** The ranking the source's sweep uses for `key`: the same value for every candidate. */
  function AsWrittenRank(alg: KeyHashing.Algorithm, local: Peer, key: Text): Peer -> int {
    p => alg.combinedHash(local.hash, alg.keyHash(key))
  }

  function SweepRank(alg: KeyHashing.Algorithm, ranking: SweepRanking, local: Peer, key: Text): Peer -> int {
    match ranking
    case AsWritten => AsWrittenRank(alg, local, key)
    case ByPeerHash => RankFor(alg, key)
  }

  /** Whether the local peer keeps `key`: it is among the first `replicationFactor` peers of the
      candidates sorted by the sweep's ranking. */
  predicate Kept(alg: KeyHashing.Algorithm, ranking: SweepRanking, peers: seq<Peer>, local: Peer, key: Text, replicationFactor: int) {
    local in Take(Sort(peers, SweepRank(alg, ranking, local, key)), replicationFactor)
  }

  /** Ranked by peer hash, the local peer keeps a key exactly when it is one of the key's
      replicas. */
  lemma KeptMeansReplica(alg: KeyHashing.Algorithm, peers: seq<Peer>, local: Peer, key: Text, replicationFactor: int)
    ensures Kept(alg, ByPeerHash, peers, local, key, replicationFactor) <==>
      PeersForKey(alg, Registry(peers, Some(local)), key, replicationFactor).Success?
      && local in PeersForKey(alg, Registry(peers, Some(local)), key, replicationFactor).value
  {
    if |peers| == 0 {
      assert Sort(peers, RankFor(alg, key)) == [];
    }
  }

  /** As written, every candidate ties, the stable sort leaves the candidates in snapshot order,
      and the decision does not depend on the key: a key stays exactly when the local peer is
      among the first `replicationFactor` of the snapshot. */
  lemma AsWrittenIgnoresKey(alg: KeyHashing.Algorithm, peers: seq<Peer>, local: Peer, key: Text, replicationFactor: int)
    ensures Kept(alg, AsWritten, peers, local, key, replicationFactor) <==> local in Take(peers, replicationFactor)
  {
    SortConstant(peers, AsWrittenRank(alg, local, key), alg.combinedHash(local.hash, alg.keyHash(key)));
  }

  /** Hence the sweep as written keeps every key or none. */
  lemma AsWrittenAllOrNothing(alg: KeyHashing.Algorithm, peers: seq<Peer>, local: Peer, key1: Text, key2: Text, replicationFactor: int)
    ensures Kept(alg, AsWritten, peers, local, key1, replicationFactor) <==> Kept(alg, AsWritten, peers, local, key2, replicationFactor)
  {
    AsWrittenIgnoresKey(alg, peers, local, key1, replicationFactor);
    AsWrittenIgnoresKey(alg, peers, local, key2, replicationFactor);
  }

  /** Ranked by peer hash, new peers that all rank no higher than the local peer for a key leave
      its keep-or-evict decision for that key as it was before they arrived: only a newcomer that
      outranks the local peer can take a key away from it. */
  lemma KeptUnlessOutranked(alg: KeyHashing.Algorithm, before: seq<Peer>, arrived: seq<Peer>, local: Peer, key: Text, replicationFactor: int)
    requires local in before
    requires forall i :: 0 <= i < |arrived| ==> KeyRank(alg, key, arrived[i]) <= KeyRank(alg, key, local)
    ensures Kept(alg, ByPeerHash, before + arrived, local, key, replicationFactor) <==> Kept(alg, ByPeerHash, before, local, key, replicationFactor)
  {
    var rank := RankFor(alg, key);
    assert forall i :: 0 <= i < |arrived| ==> rank(arrived[i]) <= rank(local);
    AppendBelowKeepsMembership(before, arrived, rank, local, replicationFactor);
  }

  /** The store with entries written through the local peer kept only for keys `keep` accepts;
      entries put there by anything else are never touched. */
  function KeepOnly(store: Store, keep: Text -> bool): (s: Store)
    ensures forall k :: k in s <==> k in store && (k.PeerKey? ==> keep(k.key))
    ensures forall k :: k in s ==> s[k] == store[k]
  {
    map k | k in store && (k.PeerKey? ==> keep(k.key)) :: store[k]
  }

  /** The sweep's decision for each key. */
  function KeepFor(alg: KeyHashing.Algorithm, ranking: SweepRanking, peers: seq<Peer>, local: Peer, replicationFactor: int): Text -> bool {
    key => Kept(alg, ranking, peers, local, key, replicationFactor)
  }

  /** The local store after a sweep: entries written through the local peer stay only for keys
      the local peer keeps; entries put there by anything else are never touched. */
  function Sweep(alg: KeyHashing.Algorithm, store: Store, ranking: SweepRanking, peers: seq<Peer>, local: Peer, replicationFactor: int): (s: Store)
    ensures forall k :: k in s <==> k in store && (k.PeerKey? ==> Kept(alg, ranking, peers, local, k.key, replicationFactor))
    ensures forall k :: k in s ==> s[k] == store[k]
  {
    KeepOnly(store, KeepFor(alg, ranking, peers, local, replicationFactor))
  }

  /** The source's sweep loop: it walks a listing of the cached keys and removes each key the
      local peer does not keep. Each decision reads only the candidate list, never the store, so
      whatever order the listing has the result is the filtered store. */
  method SweepKeys(alg: KeyHashing.Algorithm, store: Store, keys: seq<Text>, ranking: SweepRanking, peers: seq<Peer>, local: Peer, replicationFactor: int)
    returns (s: Store)
    requires forall key :: key in keys <==> key in LocalPeer.CachedKeys(store)
    ensures s == Sweep(alg, store, ranking, peers, local, replicationFactor)
  {
    s := RemoveUnkept(store, keys, KeepFor(alg, ranking, peers, local, replicationFactor));
  }

  /** The loop of the sweep for any decision `keep`: each listed key `keep` rejects is removed. */
  method RemoveUnkept(store: Store, keys: seq<Text>, keep: Text -> bool) returns (s: Store)
    requires forall key :: key in keys <==> key in LocalPeer.CachedKeys(store)
    ensures s == KeepOnly(store, keep)
  {
    s := store;
    var i := 0;
    while i < |keys|
      invariant i <= |keys|
      invariant forall k :: k in s <==> k in store && (k.PeerKey? && k.key in keys[..i] ==> keep(k.key))
      invariant forall k :: k in s ==> s[k] == store[k]
    {
      if !keep(keys[i]) {
        s := LocalPeer.Remove(s, keys[i]);
      }
      assert keys[..i + 1] == keys[..i] + [keys[i]];
      i := i + 1;
    }
    assert keys[..i] == keys;
    var kept := KeepOnly(store, keep);
    assert forall k :: k in s <==> k in kept;
  }

  /** One discovered peer: its description and how opening its channel went (`None` when it
      connected). */
  datatype Arrival = Arrival(desc: PeerDescription, connect: Option<Error>)

  function Created(alg: KeyHashing.Algorithm, a: Arrival): Result<Peer, Error> {
    PeerFactory.CreateRemote(alg, a.desc, a.connect)
  }

  /** Every creation before the `i`-th succeeded. */
  predicate FirstFailure(alg: KeyHashing.Algorithm, arrivals: seq<Arrival>, i: nat) {
    forall j :: 0 <= j < i && j < |arrivals| ==> Created(alg, arrivals[j]).Success?
  }

  /** The peers built for the arrivals, listed in the order their creations completed; the first
      creation to fail, in that order, is the error. */
  function CreateAll(alg: KeyHashing.Algorithm, arrivals: seq<Arrival>): (r: Result<seq<Peer>, Error>)
    ensures r.Success? <==> forall i :: 0 <= i < |arrivals| ==> Created(alg, arrivals[i]).Success?
    ensures r.Success? ==> |r.value| == |arrivals|
    ensures r.Success? ==> forall i :: 0 <= i < |arrivals| ==> r.value[i] == Created(alg, arrivals[i]).value
    ensures r.Failure? ==>
      exists i :: 0 <= i < |arrivals| && Created(alg, arrivals[i]) == Failure(r.error) && FirstFailure(alg, arrivals, i)
  {
    if |arrivals| == 0 then Success([])
    else
      var first := Created(alg, arrivals[0]);
      if first.Failure? then Failure(first.error)
      else
        var rest := CreateAll(alg, arrivals[1..]);
        if rest.Failure? then Failure(rest.error) else Success([first.value] + rest.value)
  }

  /** The registry, the local store and what was thrown, after an event. A thrown event leaves
      the registry and the store as they were. */
  datatype Outcome = Outcome(reg: Registry, store: Store, thrown: Option<Error>)

  /** Peers discovered: the arrivals become remote peers appended to the snapshot in completion
      order, duplicates of known ids included; with a local peer present, the sweep then drops
      the local entries of keys the local peer no longer keeps. */
  function OnPeersDiscovered(alg: KeyHashing.Algorithm, reg: Registry, store: Store, arrivals: seq<Arrival>, replicationFactor: int, ranking: SweepRanking)
    : (out: Outcome)
    ensures out.thrown.Some? <==> exists i :: 0 <= i < |arrivals| && Created(alg, arrivals[i]).Failure?
    ensures out.thrown.Some? ==> out.reg == reg && out.store == store
    ensures out.thrown.Some? ==>
      exists i :: 0 <= i < |arrivals| && Created(alg, arrivals[i]) == Failure(out.thrown.value) && FirstFailure(alg, arrivals, i)
    ensures out.thrown.None? ==>
      out.reg.localPeer == reg.localPeer
      && |out.reg.peers| == |reg.peers| + |arrivals|
      && out.reg.peers[..|reg.peers|] == reg.peers
      && (forall i :: 0 <= i < |arrivals| ==> out.reg.peers[|reg.peers| + i] == Created(alg, arrivals[i]).value)
    ensures out.thrown.None? && reg.localPeer.None? ==> out.store == store
    ensures out.thrown.None? && reg.localPeer.Some? ==>
      out.store == Sweep(alg, store, ranking, out.reg.peers, reg.localPeer.value, replicationFactor)
  {
    var created := CreateAll(alg, arrivals);
    if created.Failure? then Outcome(reg, store, Some(created.error))
    else
      var peers := reg.peers + created.value;
      var swept := if reg.localPeer.Some? then Sweep(alg, store, ranking, peers, reg.localPeer.value, replicationFactor) else store;
      Outcome(Registry(peers, reg.localPeer), swept, None)
  }

  /** Discovery keeps the registry valid: every new peer is remote and carries its id's hash. */
  lemma DiscoveredKeepsValid(alg: KeyHashing.Algorithm, reg: Registry, store: Store, arrivals: seq<Arrival>, replicationFactor: int, ranking: SweepRanking)
    requires Valid(alg, reg)
    ensures Valid(alg, OnPeersDiscovered(alg, reg, store, arrivals, replicationFactor, ranking).reg)
  {
    var out := OnPeersDiscovered(alg, reg, store, arrivals, replicationFactor, ranking);
    if out.thrown.None? {
      var created := CreateAll(alg, arrivals).value;
      assert out.reg.peers == reg.peers + created;
      forall p | p in created
        ensures p.kind == Remote && p.hash == alg.peerHash(p.id)
      {
        var i :| 0 <= i < |created| && created[i] == p;
        assert Created(alg, arrivals[i]).value == p;
      }
      if reg.localPeer.Some? {
        assert multiset(created)[reg.localPeer.value] == 0;
      }
    }
  }

  /** The sweep as written keeps every cached key or evicts every one, whichever keys they are. */
  lemma DiscoveredAsWrittenAllOrNothing(alg: KeyHashing.Algorithm, reg: Registry, store: Store, arrivals: seq<Arrival>, replicationFactor: int, key1: Text, key2: Text)
    requires reg.localPeer.Some?
    requires PeerKey(key1) in store && PeerKey(key2) in store
    ensures var out := OnPeersDiscovered(alg, reg, store, arrivals, replicationFactor, AsWritten);
      PeerKey(key1) in out.store <==> PeerKey(key2) in out.store
  {
    var out := OnPeersDiscovered(alg, reg, store, arrivals, replicationFactor, AsWritten);
    AsWrittenAllOrNothing(alg, out.reg.peers, reg.localPeer.value, key1, key2, replicationFactor);
  }

  /** Ranked by peer hash, a cached key for which the local peer was a replica before stays in
      the store unless some newcomer outranks the local peer for it. */
  lemma DiscoveredKeepsUnlessOutranked(alg: KeyHashing.Algorithm, reg: Registry, store: Store, arrivals: seq<Arrival>, replicationFactor: int, key: Text)
    requires reg.localPeer.Some? && reg.localPeer.value in reg.peers
    requires PeerKey(key) in store && Kept(alg, ByPeerHash, reg.peers, reg.localPeer.value, key, replicationFactor)
    requires forall i :: 0 <= i < |arrivals| && Created(alg, arrivals[i]).Success? ==>
      KeyRank(alg, key, Created(alg, arrivals[i]).value) <= KeyRank(alg, key, reg.localPeer.value)
    ensures PeerKey(key) in OnPeersDiscovered(alg, reg, store, arrivals, replicationFactor, ByPeerHash).store
  {
    var out := OnPeersDiscovered(alg, reg, store, arrivals, replicationFactor, ByPeerHash);
    if out.thrown.None? {
      var created := CreateAll(alg, arrivals).value;
      assert out.reg.peers == reg.peers + created;
      KeptUnlessOutranked(alg, reg.peers, created, reg.localPeer.value, key, replicationFactor);
    }
  }

  /** The index of the first peer with the given id, if any. */
  function IndexOfId(peers: seq<Peer>, id: Text): (r: Option<nat>)
    ensures r.Some? ==> r.value < |peers| && peers[r.value].id == id
    ensures r.Some? ==> forall j :: 0 <= j < r.value ==> peers[j].id != id
    ensures r.None? ==> forall j :: 0 <= j < |peers| ==> peers[j].id != id
  {
    if |peers| == 0 then None
    else if peers[0].id == id then Some(0)
    else match IndexOfId(peers[1..], id)
      case None => None
      case Some(i) => Some(i + 1)
  }

  function IdsOf(descs: seq<PeerDescription>): set<Text> {
    set d | d in descs :: d.id
  }

  /** `a` is `b` with some elements left out, the rest in their order. */
  predicate Subsequence<T(==)>(a: seq<T>, b: seq<T>)
    decreases |b|
  {
    |a| == 0 || (|b| > 0 && ((a[0] == b[0] && Subsequence(a[1..], b[1..])) || Subsequence(a, b[1..])))
  }

  lemma {:induction false} SubsequenceRefl<T>(s: seq<T>)
    ensures Subsequence(s, s)
  {
    if |s| > 0 {
      SubsequenceRefl(s[1..]);
    }
  }

  lemma {:induction false} SubsequenceOfRemoveAt<T>(s: seq<T>, i: nat)
    requires i < |s|
    ensures Subsequence(RemoveAt(s, i), s)
  {
    if i == 0 {
      assert RemoveAt(s, i) == s[1..];
      SubsequenceRefl(s[1..]);
    } else {
      SubsequenceOfRemoveAt(s[1..], i - 1);
      assert RemoveAt(s, i)[1..] == RemoveAt(s[1..], i - 1);
    }
  }

  lemma SubsequenceOfRemoveFirst<T>(s: seq<T>, x: T)
    ensures Subsequence(RemoveFirst(s, x), s)
  {
    if x in s {
      SubsequenceOfRemoveAt(s, FirstIndex(s, x));
    } else {
      SubsequenceRefl(s);
    }
  }

  lemma {:induction false} SubsequenceTrans<T>(a: seq<T>, b: seq<T>, c: seq<T>)
    requires Subsequence(a, b) && Subsequence(b, c)
    ensures Subsequence(a, c)
    decreases |c|
  {
    if |a| > 0 {
      if Subsequence(b, c[1..]) {
        SubsequenceTrans(a, b, c[1..]);
      } else if Subsequence(a, b[1..]) {
        SubsequenceTrans(a, b[1..], c[1..]);
      } else {
        SubsequenceTrans(a[1..], b[1..], c[1..]);
      }
    }
  }

  /** Walks the removed descriptions in order; for each, the first remaining peer with that id is
      dropped and set aside for disposal, and an unknown id is skipped. Returns the survivors and
      the dropped peers in the order they were dropped. */
  function DropPeers(peers: seq<Peer>, removed: seq<PeerDescription>): (out: (seq<Peer>, seq<Peer>))
    ensures multiset(out.0) + multiset(out.1) == multiset(peers)
    ensures forall p :: p in out.1 ==> p.id in IdsOf(removed)
    ensures |out.1| <= |removed|
    ensures Subsequence(out.0, peers)
    ensures forall p :: p in out.0 ==> p in peers
    ensures forall x :: WithId(out.1, x) == Take(WithId(peers, x), CountId(removed, x))
    ensures forall x :: WithId(peers, x) == WithId(out.1, x) + WithId(out.0, x)
    ensures out.0 == Survivors(peers, removed)
  {
    if |removed| == 0 then
      SubsequenceRefl(peers);
      SurvivorsWithoutDescriptions(peers, |peers|);
      (peers, [])
    else
      match IndexOfId(peers, removed[0].id)
      case None =>
        var rest := DropPeers(peers, removed[1..]);
        assert IdsOf(removed[1..]) <= IdsOf(removed);
        SkipIdStep(peers, removed, rest.0, rest.1);
        SurvivorsSkipId(peers, removed, |peers|);
        rest
      case Some(i) =>
        var rest := DropPeers(RemoveAt(peers, i), removed[1..]);
        DropStep(peers, i, removed, rest.0, rest.1);
        DropIdStep(peers, i, removed, rest.0, rest.1);
        SurvivorsAfterDrop(peers, i, removed, |peers|);
        (rest.0, [peers[i]] + rest.1)
  }

  /** Whether the snapshot peer at position `j` survives the removal: the peers before it with
      its id already use up every description carrying that id. */
  predicate Survives(peers: seq<Peer>, removed: seq<PeerDescription>, j: nat)
    requires j < |peers|
  {
    |WithId(peers[..j], peers[j].id)| >= CountId(removed, peers[j].id)
  }

  /** The surviving peers among the first `n`, in snapshot order. */
  function SurvivorsUpTo(peers: seq<Peer>, removed: seq<PeerDescription>, n: nat): seq<Peer>
    requires n <= |peers|
  {
    if n == 0 then []
    else SurvivorsUpTo(peers, removed, n - 1) + (if Survives(peers, removed, n - 1) then [peers[n - 1]] else [])
  }

  function Survivors(peers: seq<Peer>, removed: seq<PeerDescription>): seq<Peer> {
    SurvivorsUpTo(peers, removed, |peers|)
  }

  /** With no descriptions every peer survives. */
  lemma {:induction false} SurvivorsWithoutDescriptions(peers: seq<Peer>, n: nat)
    requires n <= |peers|
    ensures SurvivorsUpTo(peers, [], n) == peers[..n]
  {
    if n > 0 {
      SurvivorsWithoutDescriptions(peers, n - 1);
      assert peers[..n] == peers[..n - 1] + [peers[n - 1]];
    }
  }

  /** A description whose id no peer has changes no peer's fate. */
  lemma {:induction false} SurvivorsSkipId(peers: seq<Peer>, removed: seq<PeerDescription>, n: nat)
    requires |removed| > 0 && n <= |peers|
    requires forall j :: 0 <= j < |peers| ==> peers[j].id != removed[0].id
    ensures SurvivorsUpTo(peers, removed[1..], n) == SurvivorsUpTo(peers, removed, n)
  {
    if n > 0 {
      SurvivorsSkipId(peers, removed, n - 1);
      assert CountId(removed, peers[n - 1].id) == CountId(removed[1..], peers[n - 1].id);
    }
  }

  /** Dropping the first peer with the first description's id, then removing the remaining
      descriptions, leaves the same survivors: before it nothing changes, it does not survive,
      and after it each peer sees one fewer earlier peer with the dropped id and one fewer
      description with that id. */
  lemma {:induction false} SurvivorsAfterDrop(peers: seq<Peer>, i: nat, removed: seq<PeerDescription>, n: nat)
    requires |removed| > 0 && IndexOfId(peers, removed[0].id) == Some(i)
    requires i < n <= |peers|
    ensures SurvivorsUpTo(RemoveAt(peers, i), removed[1..], n - 1) == SurvivorsUpTo(peers, removed, n)
  {
    if n == i + 1 {
      SurvivorsBeforeDrop(peers, i, removed, i);
      FirstMatchDropped(peers, i, removed);
    } else {
      var shorter := RemoveAt(peers, i);
      SurvivorsAfterDrop(peers, i, removed, n - 1);
      SurvivesAfterDrop(peers, i, removed, n - 1);
      assert shorter[n - 2] == peers[n - 1];
      assert SurvivorsUpTo(shorter, removed[1..], n - 1)
        == SurvivorsUpTo(shorter, removed[1..], n - 2) + (if Survives(shorter, removed[1..], n - 2) then [shorter[n - 2]] else []);
    }
  }

  lemma {:induction false} SurvivorsBeforeDrop(peers: seq<Peer>, i: nat, removed: seq<PeerDescription>, n: nat)
    requires |removed| > 0 && IndexOfId(peers, removed[0].id) == Some(i)
    requires n <= i
    ensures SurvivorsUpTo(RemoveAt(peers, i), removed[1..], n) == SurvivorsUpTo(peers, removed, n)
  {
    if n > 0 {
      SurvivorsBeforeDrop(peers, i, removed, n - 1);
      SurvivesBeforeDrop(peers, i, removed, n - 1);
    }
  }

  /** The first peer with the first description's id does not survive. */
  lemma FirstMatchDropped(peers: seq<Peer>, i: nat, removed: seq<PeerDescription>)
    requires |removed| > 0 && IndexOfId(peers, removed[0].id) == Some(i)
    ensures !Survives(peers, removed, i)
  {
    var before := peers[..i];
    assert forall j :: 0 <= j < |before| ==> before[j] == peers[j];
    WithIdAbsent(before, removed[0].id);
  }

  /** A peer before the dropped one keeps its fate. */
  lemma SurvivesBeforeDrop(peers: seq<Peer>, i: nat, removed: seq<PeerDescription>, j: nat)
    requires |removed| > 0 && IndexOfId(peers, removed[0].id) == Some(i)
    requires j < i
    ensures Survives(RemoveAt(peers, i), removed[1..], j) == Survives(peers, removed, j)
  {
    assert RemoveAt(peers, i)[..j] == peers[..j];
    assert CountId(removed, peers[j].id) == CountId(removed[1..], peers[j].id);
  }

  /** A single description drops exactly the first peer with its id, if there is one. */
  lemma SingleDescriptionDropsFirst(peers: seq<Peer>, d: PeerDescription, i: nat)
    requires IndexOfId(peers, d.id) == Some(i)
    ensures DropPeers(peers, [d]) == (RemoveAt(peers, i), [peers[i]])
  {
    assert [d][1..] == [];
    var rest := DropPeers(RemoveAt(peers, i), []);
    assert rest == (RemoveAt(peers, i), []);
    assert DropPeers(peers, [d]) == (rest.0, [peers[i]] + rest.1);
    assert [peers[i]] + rest.1 == [peers[i]];
  }

  /** With the id `r` listed twice and one description for it, the earlier `r` goes and the later
      one stays where it was, after `l`. */
  lemma RepeatedIdDropsEarlier(r: Peer, l: Peer, d: PeerDescription)
    requires r.id == d.id && l.id != d.id
    ensures DropPeers([r, l, r], [d]) == ([l, r], [r])
  {
    assert IndexOfId([r, l, r], d.id) == Some(0);
    SingleDescriptionDropsFirst([r, l, r], d, 0);
    assert RemoveAt([r, l, r], 0) == [l, r];
  }

  /** A peer after the dropped one keeps its fate one position earlier. */
  lemma SurvivesAfterDrop(peers: seq<Peer>, i: nat, removed: seq<PeerDescription>, j: nat)
    requires |removed| > 0 && i < j < |peers| && peers[i].id == removed[0].id
    ensures Survives(RemoveAt(peers, i), removed[1..], j - 1) == Survives(peers, removed, j)
  {
    var shorter := RemoveAt(peers, i);
    var x := peers[j].id;
    assert CountId(removed, x) == CountId(removed[1..], x) + (if x == removed[0].id then 1 else 0);
    assert shorter[j - 1] == peers[j];
    assert peers[..j] == peers[..i] + [peers[i]] + peers[i + 1..j];
    assert shorter[..j - 1] == peers[..i] + peers[i + 1..j];
    WithIdAround(peers[..i], peers[i], peers[i + 1..j], x);
  }

  /** The peers with the given id, in snapshot order. */
  function WithId(peers: seq<Peer>, id: Text): seq<Peer> {
    if |peers| == 0 then []
    else (if peers[0].id == id then [peers[0]] else []) + WithId(peers[1..], id)
  }

  /** How many of the descriptions carry the given id. */
  function CountId(descs: seq<PeerDescription>, id: Text): (n: nat)
    ensures n <= |descs|
  {
    if |descs| == 0 then 0
    else (if descs[0].id == id then 1 else 0) + CountId(descs[1..], id)
  }

  lemma WithIdCons(p: Peer, s: seq<Peer>, id: Text)
    ensures WithId([p] + s, id) == (if p.id == id then [p] else []) + WithId(s, id)
  {
    assert ([p] + s)[1..] == s;
  }

  lemma {:induction false} WithIdAppend(a: seq<Peer>, b: seq<Peer>, id: Text)
    ensures WithId(a + b, id) == WithId(a, id) + WithId(b, id)
    decreases |a|
  {
    if |a| == 0 {
      assert a + b == b;
    } else {
      assert a + b == [a[0]] + (a[1..] + b);
      WithIdCons(a[0], a[1..] + b, id);
      WithIdAppend(a[1..], b, id);
    }
  }

  lemma {:induction false} WithIdAbsent(peers: seq<Peer>, id: Text)
    requires forall j :: 0 <= j < |peers| ==> peers[j].id != id
    ensures WithId(peers, id) == []
    decreases |peers|
  {
    if |peers| > 0 {
      WithIdAbsent(peers[1..], id);
    }
  }

  /** Taking out the first peer with a given id takes it off the front of that id's peers. */
  lemma WithIdDropsFirst(peers: seq<Peer>, i: nat, id: Text)
    requires i < |peers| && peers[i].id == id
    requires forall j :: 0 <= j < i ==> peers[j].id != id
    ensures WithId(peers, id) == [peers[i]] + WithId(RemoveAt(peers, i), id)
  {
    var before, after := peers[..i], peers[i + 1..];
    assert peers == before + [peers[i]] + after;
    assert RemoveAt(peers, i) == before + after;
    WithIdAround(before, peers[i], after, id);
    WithIdAbsent(before, id);
  }

  /** Taking out a peer leaves the peers of every other id as they were. */
  lemma WithIdOtherKept(peers: seq<Peer>, i: nat, x: Text)
    requires i < |peers| && peers[i].id != x
    ensures WithId(RemoveAt(peers, i), x) == WithId(peers, x)
  {
    var before, after := peers[..i], peers[i + 1..];
    assert peers == before + [peers[i]] + after;
    assert RemoveAt(peers, i) == before + after;
    WithIdAround(before, peers[i], after, x);
  }

  /** The peers with an id around one element: those before it, then the element if it has that
      id, then those after it. */
  lemma WithIdAround(before: seq<Peer>, p: Peer, after: seq<Peer>, x: Text)
    ensures WithId(before + [p] + after, x) ==
      WithId(before, x) + (if p.id == x then [p] else []) + WithId(after, x)
    ensures WithId(before + after, x) == WithId(before, x) + WithId(after, x)
  {
    assert before + [p] + after == before + ([p] + after);
    WithIdAppend(before, [p] + after, x);
    WithIdCons(p, after, x);
    WithIdAppend(before, after, x);
  }

  lemma TakeCons<T>(a: T, t: seq<T>, c: nat)
    ensures Take([a] + t, c + 1) == [a] + Take(t, c)
  {
    if c > 0 && c < |t| {
      assert ([a] + t)[..c + 1] == [a] + t[..c];
    }
  }

  /** The step of `DropPeers` for a description whose id no peer has. */
  lemma SkipIdStep(peers: seq<Peer>, removed: seq<PeerDescription>, kept: seq<Peer>, dropped: seq<Peer>)
    requires |removed| > 0 && IndexOfId(peers, removed[0].id).None?
    requires forall x :: WithId(dropped, x) == Take(WithId(peers, x), CountId(removed[1..], x))
    ensures forall x :: WithId(dropped, x) == Take(WithId(peers, x), CountId(removed, x))
  {
    WithIdAbsent(peers, removed[0].id);
  }

  /** The step of `DropPeers` that drops `peers[i]`, the first peer with the first removed id:
      per id, what is dropped and what survives. */
  lemma DropIdStep(peers: seq<Peer>, i: nat, removed: seq<PeerDescription>, kept: seq<Peer>, dropped: seq<Peer>)
    requires |removed| > 0 && IndexOfId(peers, removed[0].id) == Some(i)
    requires forall x :: WithId(dropped, x) == Take(WithId(RemoveAt(peers, i), x), CountId(removed[1..], x))
    requires forall x :: WithId(RemoveAt(peers, i), x) == WithId(dropped, x) + WithId(kept, x)
    ensures forall x :: WithId([peers[i]] + dropped, x) == Take(WithId(peers, x), CountId(removed, x))
    ensures forall x :: WithId(peers, x) == WithId([peers[i]] + dropped, x) + WithId(kept, x)
  {
    forall x
      ensures WithId([peers[i]] + dropped, x) == Take(WithId(peers, x), CountId(removed, x))
      ensures WithId(peers, x) == WithId([peers[i]] + dropped, x) + WithId(kept, x)
    {
      DropIdStepAt(peers, i, removed, kept, dropped, x);
    }
  }

  /** `DropIdStep` for one id. */
  lemma DropIdStepAt(peers: seq<Peer>, i: nat, removed: seq<PeerDescription>, kept: seq<Peer>, dropped: seq<Peer>, x: Text)
    requires |removed| > 0 && IndexOfId(peers, removed[0].id) == Some(i)
    requires WithId(dropped, x) == Take(WithId(RemoveAt(peers, i), x), CountId(removed[1..], x))
    requires WithId(RemoveAt(peers, i), x) == WithId(dropped, x) + WithId(kept, x)
    ensures WithId([peers[i]] + dropped, x) == Take(WithId(peers, x), CountId(removed, x))
    ensures WithId(peers, x) == WithId([peers[i]] + dropped, x) + WithId(kept, x)
  {
    if x == removed[0].id {
      DropMatchingId(peers, i, removed, kept, dropped);
    } else {
      WithIdOtherKept(peers, i, x);
      WithIdCons(peers[i], dropped, x);
    }
  }

  /** `DropIdStep` for the id being dropped: its first peer goes to the front of the dropped
      ones, and one more description carries the id. */
  lemma DropMatchingId(peers: seq<Peer>, i: nat, removed: seq<PeerDescription>, kept: seq<Peer>, dropped: seq<Peer>)
    requires |removed| > 0 && IndexOfId(peers, removed[0].id) == Some(i)
    requires WithId(dropped, removed[0].id) == Take(WithId(RemoveAt(peers, i), removed[0].id), CountId(removed[1..], removed[0].id))
    requires WithId(RemoveAt(peers, i), removed[0].id) == WithId(dropped, removed[0].id) + WithId(kept, removed[0].id)
    ensures WithId([peers[i]] + dropped, removed[0].id) == Take(WithId(peers, removed[0].id), CountId(removed, removed[0].id))
    ensures WithId(peers, removed[0].id) == WithId([peers[i]] + dropped, removed[0].id) + WithId(kept, removed[0].id)
  {
    var id := removed[0].id;
    WithIdDropsFirst(peers, i, id);
    WithIdCons(peers[i], dropped, id);
    DroppedFront(peers[i], WithId(RemoveAt(peers, i), id), WithId(dropped, id), WithId(kept, id), CountId(removed[1..], id));
    assert CountId(removed, id) == CountId(removed[1..], id) + 1;
  }

  /** The sequence facts behind `DropMatchingId`, with the peer lists abstracted. */
  lemma DroppedFront(p: Peer, w: seq<Peer>, d: seq<Peer>, k: seq<Peer>, c: nat)
    requires d == Take(w, c) && w == d + k
    ensures [p] + d == Take([p] + w, c + 1)
    ensures [p] + w == ([p] + d) + k
  {
    TakeCons(p, w, c);
  }

  /** The step of `DropPeers` that drops `peers[i]`, whose id is the first removed one. */
  lemma DropStep(peers: seq<Peer>, i: nat, removed: seq<PeerDescription>, kept: seq<Peer>, dropped: seq<Peer>)
    requires i < |peers| && |removed| > 0 && peers[i].id == removed[0].id
    requires multiset(kept) + multiset(dropped) == multiset(RemoveAt(peers, i))
    requires forall p :: p in dropped ==> p.id in IdsOf(removed[1..])
    requires |dropped| <= |removed[1..]|
    requires Subsequence(kept, RemoveAt(peers, i))
    ensures multiset(kept) + multiset([peers[i]] + dropped) == multiset(peers)
    ensures forall p :: p in [peers[i]] + dropped ==> p.id in IdsOf(removed)
    ensures |[peers[i]] + dropped| <= |removed|
    ensures Subsequence(kept, peers)
    ensures forall p :: p in kept ==> p in peers
  {
    assert IdsOf(removed[1..]) <= IdsOf(removed);
    assert removed[0] in removed;
    SubsequenceOfRemoveAt(peers, i);
    SubsequenceTrans(kept, RemoveAt(peers, i), peers);
    forall p | p in kept
      ensures p in peers
    {
      assert p in multiset(peers);
    }
  }

  /** Peers removed: the survivors become the snapshot, and the dropped peers are disposed, each
      once, after the swap. The local peer field is left alone. */
  function OnPeersRemoved(reg: Registry, removed: seq<PeerDescription>): (out: (Registry, seq<Peer>))
    ensures out.0.localPeer == reg.localPeer
    ensures multiset(out.0.peers) + multiset(out.1) == multiset(reg.peers)
    ensures Subsequence(out.0.peers, reg.peers)
    ensures forall p :: p in out.1 ==> p.id in IdsOf(removed)
    ensures forall p: Peer :: p.id !in IdsOf(removed) ==> multiset(out.0.peers)[p] == multiset(reg.peers)[p]
    ensures forall x :: WithId(out.1, x) == Take(WithId(reg.peers, x), CountId(removed, x))
    ensures forall x :: WithId(reg.peers, x) == WithId(out.1, x) + WithId(out.0.peers, x)
    ensures out.0.peers == Survivors(reg.peers, removed)
  {
    var dropped := DropPeers(reg.peers, removed);
    assert forall p: Peer :: p.id !in IdsOf(removed) ==> multiset(dropped.1)[p] == 0;
    (Registry(dropped.0, reg.localPeer), dropped.1)
  }

  /** A removed description whose id the snapshot has takes the first peer with that id out:
      the event is never a no-op for an id that is present, and that id's survivors are the
      rest of its peers. */
  lemma RemovedDropsFirstMatch(reg: Registry, removed: seq<PeerDescription>, d: PeerDescription, i: nat)
    requires d in removed && IndexOfId(reg.peers, d.id) == Some(i)
    ensures var out := OnPeersRemoved(reg, removed);
      |WithId(out.1, d.id)| > 0 && WithId(out.1, d.id)[0] == reg.peers[i]
      && reg.peers[i] in out.1
      && WithId(out.0.peers, d.id) == WithId(reg.peers, d.id)[|WithId(out.1, d.id)|..]
  {
    var out := OnPeersRemoved(reg, removed);
    WithIdDropsFirst(reg.peers, i, d.id);
    CountIdOfMember(removed, d);
    var dropped := WithId(out.1, d.id);
    assert dropped == Take(WithId(reg.peers, d.id), CountId(removed, d.id));
    assert dropped[0] == reg.peers[i];
    WithIdMembers(out.1, d.id, 0);
  }

  /** A description in the list counts towards its id. */
  lemma {:induction false} CountIdOfMember(descs: seq<PeerDescription>, d: PeerDescription)
    requires d in descs
    ensures CountId(descs, d.id) >= 1
    decreases |descs|
  {
    if descs[0] != d {
      assert d in descs[1..];
      CountIdOfMember(descs[1..], d);
    }
  }

  /** Every element of an id's peers is one of the peers. */
  lemma {:induction false} WithIdMembers(peers: seq<Peer>, id: Text, j: nat)
    requires j < |WithId(peers, id)|
    ensures WithId(peers, id)[j] in peers
    decreases |peers|
  {
    if |peers| > 0 {
      if peers[0].id == id && j == 0 {
      } else {
        var k := if peers[0].id == id then j - 1 else j;
        WithIdMembers(peers[1..], id, k);
      }
    }
  }

  /** Removal keeps the registry valid. */
  lemma RemovedKeepsValid(alg: KeyHashing.Algorithm, reg: Registry, removed: seq<PeerDescription>)
    requires Valid(alg, reg)
    ensures Valid(alg, OnPeersRemoved(reg, removed).0)
  {
    var next := OnPeersRemoved(reg, removed).0;
    assert forall p :: multiset(next.peers)[p] <= multiset(reg.peers)[p];
  }

  /** Every peer's id appears once. */
  predicate DistinctIds(peers: seq<Peer>) {
    forall i, j :: 0 <= i < j < |peers| ==> peers[i].id != peers[j].id
  }

  /** Dropping one peer keeps the ids distinct and leaves no peer with the dropped one's id. */
  lemma DistinctAfterRemoveAt(peers: seq<Peer>, i: nat)
    requires DistinctIds(peers) && i < |peers|
    ensures DistinctIds(RemoveAt(peers, i))
    ensures forall p :: p in RemoveAt(peers, i) ==> p.id != peers[i].id
  {
    var shorter := RemoveAt(peers, i);
    forall a, b | 0 <= a < b < |shorter|
      ensures shorter[a].id != shorter[b].id
    {
      var a', b' := if a < i then a else a + 1, if b < i then b else b + 1;
      assert shorter[a] == peers[a'] && shorter[b] == peers[b'];
    }
    forall p | p in shorter
      ensures p.id != peers[i].id
    {
      var j :| 0 <= j < |shorter| && shorter[j] == p;
      assert shorter[j] == peers[if j < i then j else j + 1];
    }
  }

  lemma IdsOfCons(removed: seq<PeerDescription>)
    requires |removed| > 0
    ensures IdsOf(removed) == {removed[0].id} + IdsOf(removed[1..])
  {
    assert removed == [removed[0]] + removed[1..];
  }

  /** With distinct ids in the snapshot, no survivor has the id of a removed description. */
  lemma {:induction false} DroppedIdsGone(peers: seq<Peer>, removed: seq<PeerDescription>)
    requires DistinctIds(peers)
    ensures forall p :: p in DropPeers(peers, removed).0 ==> p.id !in IdsOf(removed)
    decreases |removed|
  {
    if |removed| > 0 {
      IdsOfCons(removed);
      match IndexOfId(peers, removed[0].id)
      case None =>
        DroppedIdsGone(peers, removed[1..]);
      case Some(i) =>
        DistinctAfterRemoveAt(peers, i);
        DroppedIdsGone(RemoveAt(peers, i), removed[1..]);
    }
  }
}

=== FILE: remotepeer.dfy ===
/** The remote peer: each operation sends one request over the transport and maps what came back.
    Any exception, cancellation included, is rethrown as a cache error that wraps it, with a
    message naming the operation. */
module RemotePeer {
  import opened Wrappers
  import opened Utf16
  import opened Peers
  import opened Protocol

  const GetFailedMessage := "Failed to get value from remote peer"
  const SetFailedMessage := "Failed to set value on remote peer"
  const RemoveFailedMessage := "Failed to remove value from remote peer"

  function Create(id: Text, hash: bv32): (p: Peer)
    ensures p.id == id && p.hash == hash && p.kind == Remote
  {
    Peer(id, hash, Remote)
  }

  /** The request each operation sends: the key, and for a set a copy of the bytes. */
  function RequestFor(op: Operation): (req: Request)
    ensures req.key == op.key
    ensures req.SetRequest? <==> op.SetOp?
    ensures op.SetOp? ==> req.value == op.value
  {
    match op
    case GetOp(key) => GetRequest(key)
    case SetOp(key, value) => SetRequest(key, value)
    case RemoveOp(key) => RemoveRequest(key)
  }

  datatype Operation = GetOp(key: Text) | SetOp(key: Text, value: seq<Byte>) | RemoveOp(key: Text)

  /** The reply holds a value: it is there, it is a get reply, and its value field is set. */
  predicate HasValue(call: CallResult) {
    call.Delivered? && call.reply.Some? && call.reply.value.GetReply? && call.reply.value.value.Some?
  }

  /** Maps a get call's outcome. A missing reply or an unset value is a miss; a value is stamped
      with the local clock reading `now` on receipt, whatever time the server sent. */
  function Get(call: CallResult, now: int): (r: Result<Option<CacheValue>, Error>)
    ensures r.Failure? <==> call.Threw?
    ensures call.Threw? ==> r.error == CacheError(GetFailedMessage, Some(call.cause))
    ensures r.Success? ==> (r.value.Some? <==> HasValue(call))
    ensures r.Success? && r.value.Some? ==>
      r.value.value == CacheValue(call.reply.value.value.value, now)
  {
    match call
    case Threw(cause) => Failure(CacheError(GetFailedMessage, Some(cause)))
    case Delivered(reply) =>
      if HasValue(call) then Success(Some(CacheValue(reply.value.value.value, now)))
      else Success(None)
  }

  function Set(call: CallResult): (r: Result<(), Error>)
    ensures r.Failure? <==> call.Threw?
    ensures call.Threw? ==> r.error == CacheError(SetFailedMessage, Some(call.cause))
  {
    match call
    case Threw(cause) => Failure(CacheError(SetFailedMessage, Some(cause)))
    case Delivered(_) => Success(())
  }

  function Remove(call: CallResult): (r: Result<(), Error>)
    ensures r.Failure? <==> call.Threw?
    ensures call.Threw? ==> r.error == CacheError(RemoveFailedMessage, Some(call.cause))
  {
    match call
    case Threw(cause) => Failure(CacheError(RemoveFailedMessage, Some(cause)))
    case Delivered(_) => Success(())
  }

  /** Disposing closes the channel and swallows anything closing it threw. */
  function Dispose(channelClose: Option<Error>): (r: Result<(), Error>)
    ensures r.Success?
  {
    match channelClose
    case Some(_) => Success(())
    case None => Success(())
  }
}

=== FILE: stablesort.dfy ===
/** A stable sort into descending order of an integer rank, and the `Take` that keeps a prefix of
    it: the ordering the registry uses to pick the replicas for a key. Elements of equal rank keep
    the order they had in the input. */
module StableSort {

  /** At most the first `n` elements; a count of zero or less takes nothing. */
  function Take<T>(s: seq<T>, n: int): (r: seq<T>)
    ensures |r| == if n <= 0 then 0 else if n < |s| then n else |s|
    ensures r <= s
  {
    if n <= 0 then [] else if n < |s| then s[..n] else s
  }

  ghost predicate Descending<T>(s: seq<T>, rank: T -> int) {
    forall i, j :: 0 <= i < j < |s| ==> rank(s[i]) >= rank(s[j])
  }

  /** The elements of rank `v`, in their order in `s`. */
  function Ties<T>(s: seq<T>, rank: T -> int, v: int): (r: seq<T>)
    ensures forall i :: 0 <= i < |r| ==> rank(r[i]) == v
  {
    if |s| == 0 then []
    else if rank(s[0]) == v then [s[0]] + Ties(s[1..], rank, v)
    else Ties(s[1..], rank, v)
  }

  /** Places `x` after every element ranked at least as high, so that among equals it comes last. */
  function Insert<T>(s: seq<T>, x: T, rank: T -> int): (r: seq<T>)
    ensures multiset(r) == multiset(s) + multiset{x}
  {
    if |s| == 0 then [x]
    else if rank(s[0]) >= rank(x) then
      assert s == [s[0]] + s[1..];
      [s[0]] + Insert(s[1..], x, rank)
    else [x] + s
  }

  lemma {:induction false} InsertDescending<T>(s: seq<T>, x: T, rank: T -> int)
    requires Descending(s, rank)
    ensures Descending(Insert(s, x, rank), rank)
  {
    if |s| > 0 && rank(s[0]) >= rank(x) {
      var rest := Insert(s[1..], x, rank);
      InsertDescending(s[1..], x, rank);
      forall j | 0 <= j < |rest|
        ensures rank(rest[j]) <= rank(s[0])
      {
        assert rest[j] in multiset(rest);
        if rest[j] != x {
          assert rest[j] in multiset(s[1..]);
          var k :| 0 <= k < |s[1..]| && s[1..][k] == rest[j];
          assert s[1 + k] == rest[j];
        }
      }
    }
  }

  /** The input sorted by descending rank, equal ranks in input order. */
  function Sort<T>(xs: seq<T>, rank: T -> int): (r: seq<T>)
    ensures multiset(r) == multiset(xs)
  {
    if |xs| == 0 then []
    else
      assert xs == xs[..|xs| - 1] + [xs[|xs| - 1]];
      Insert(Sort(xs[..|xs| - 1], rank), xs[|xs| - 1], rank)
  }

  lemma {:induction false} SortDescending<T>(xs: seq<T>, rank: T -> int)
    ensures Descending(Sort(xs, rank), rank)
  {
    if |xs| > 0 {
      SortDescending(xs[..|xs| - 1], rank);
      InsertDescending(Sort(xs[..|xs| - 1], rank), xs[|xs| - 1], rank);
    }
  }

  lemma SortLength<T>(xs: seq<T>, rank: T -> int)
    ensures |Sort(xs, rank)| == |xs|
  {
    assert |multiset(Sort(xs, rank))| == |multiset(xs)|;
  }

  lemma SortMembers<T>(xs: seq<T>, rank: T -> int, x: T)
    ensures x in Sort(xs, rank) <==> x in xs
  {
    assert x in multiset(Sort(xs, rank)) <==> x in multiset(xs);
  }

  /** Appending one element and sorting is inserting it into the sorted rest. */
  lemma SortSnoc<T>(xs: seq<T>, d: T, rank: T -> int)
    ensures Sort(xs + [d], rank) == Insert(Sort(xs, rank), d, rank)
  {
    assert (xs + [d])[..|xs + [d]| - 1] == xs;
  }

  lemma {:induction false} TiesAppend<T>(a: seq<T>, b: seq<T>, rank: T -> int, v: int)
    ensures Ties(a + b, rank, v) == Ties(a, rank, v) + Ties(b, rank, v)
  {
    if |a| > 0 {
      assert (a + b)[1..] == a[1..] + b;
      TiesAppend(a[1..], b, rank, v);
    } else {
      assert a + b == b;
    }
  }

  /** In a descending sequence whose head ranks below `v`, nothing ranks `v`. */
  lemma {:induction false} NoTiesBelow<T>(s: seq<T>, rank: T -> int, v: int)
    requires Descending(s, rank) && |s| > 0 && rank(s[0]) < v
    ensures Ties(s, rank, v) == []
  {
    if |s| > 1 {
      NoTiesBelow(s[1..], rank, v);
    }
  }

  /** Inserting `x` adds it at the end of its rank's ties and nowhere else. */
  lemma {:induction false} TiesOfInsert<T>(s: seq<T>, x: T, rank: T -> int, v: int)
    requires Descending(s, rank)
    ensures Ties(Insert(s, x, rank), rank, v) == Ties(s, rank, v) + (if rank(x) == v then [x] else [])
  {
    if |s| == 0 {
    } else if rank(s[0]) >= rank(x) {
      TiesOfInsert(s[1..], x, rank, v);
      assert Insert(s, x, rank) == [s[0]] + Insert(s[1..], x, rank);
    } else {
      NoTiesBelow(s, rank, rank(x));
      assert Insert(s, x, rank) == [x] + s;
      assert ([x] + s)[1..] == s;
    }
  }

  /** Stability: the sort keeps the input order among elements of equal rank. */
  lemma {:induction false} SortStable<T>(xs: seq<T>, rank: T -> int, v: int)
    ensures Ties(Sort(xs, rank), rank, v) == Ties(xs, rank, v)
  {
    if |xs| > 0 {
      var init, last := xs[..|xs| - 1], xs[|xs| - 1];
      assert xs == init + [last];
      SortStable(init, rank, v);
      SortStableSnoc(init, last, rank, v);
    }
  }

  /** The step of stability: a stable sort of `init` stays stable when one element is appended. */
  lemma SortStableSnoc<T>(init: seq<T>, last: T, rank: T -> int, v: int)
    requires Ties(Sort(init, rank), rank, v) == Ties(init, rank, v)
    ensures Ties(Sort(init + [last], rank), rank, v) == Ties(init + [last], rank, v)
  {
    SortSnoc(init, last, rank);
    SortDescending(init, rank);
    TiesOfInsert(Sort(init, rank), last, rank, v);
    TiesOfSnoc(init, last, rank, v);
  }

  /** The ties of a sequence with one more element at the end. */
  lemma TiesOfSnoc<T>(init: seq<T>, last: T, rank: T -> int, v: int)
    ensures Ties(init + [last], rank, v) == Ties(init, rank, v) + (if rank(last) == v then [last] else [])
  {
    TiesAppend(init, [last], rank, v);
    assert [last][1..] == [];
  }

  /** With every element ranked alike, inserting appends. */
  lemma {:induction false} InsertConstant<T>(s: seq<T>, x: T, rank: T -> int, c: int)
    requires forall y :: rank(y) == c
    ensures Insert(s, x, rank) == s + [x]
  {
    if |s| > 0 {
      InsertConstant(s[1..], x, rank, c);
      assert [s[0]] + (s[1..] + [x]) == s + [x];
    }
  }

  /** With every element ranked alike, the stable sort leaves the input as it is. */
  lemma {:induction false} SortConstant<T>(xs: seq<T>, rank: T -> int, c: int)
    requires forall y :: rank(y) == c
    ensures Sort(xs, rank) == xs
  {
    if |xs| > 0 {
      SortConstant(xs[..|xs| - 1], rank, c);
      InsertConstant(xs[..|xs| - 1], xs[|xs| - 1], rank, c);
      assert xs[..|xs| - 1] + [xs[|xs| - 1]] == xs;
    }
  }

  /** The position of the first occurrence of `x`. */
  function FirstIndex<T(==)>(s: seq<T>, x: T): (i: nat)
    requires x in s
    ensures i < |s| && s[i] == x && x !in s[..i]
  {
    if s[0] == x then 0 else 1 + FirstIndex(s[1..], x)
  }

  /** `x` is among the first `n` exactly when its first occurrence is. */
  lemma InTake<T>(s: seq<T>, x: T, n: int)
    requires x in s
    ensures x in Take(s, n) <==> FirstIndex(s, x) < n
  {
    var j := FirstIndex(s, x);
    if j < n {
      assert Take(s, n)[j] == x;
    }
  }

  /** Inserting an element ranked no higher than `s[j]` leaves `s[..j + 1]` in place. */
  lemma {:induction false} InsertKeepsPrefix<T>(s: seq<T>, d: T, rank: T -> int, j: nat)
    requires Descending(s, rank) && j < |s| && rank(s[j]) >= rank(d)
    ensures |Insert(s, d, rank)| == |s| + 1
    ensures Insert(s, d, rank)[..j + 1] == s[..j + 1]
  {
    assert rank(s[0]) >= rank(d);
    if j == 0 {
      InsertLength(s[1..], d, rank);
    } else {
      InsertKeepsPrefix(s[1..], d, rank, j - 1);
      assert Insert(s, d, rank) == [s[0]] + Insert(s[1..], d, rank);
    }
  }

  lemma InsertLength<T>(s: seq<T>, d: T, rank: T -> int)
    ensures |Insert(s, d, rank)| == |s| + 1
  {
    assert |multiset(Insert(s, d, rank))| == |multiset(s)| + 1;
  }

  /** Inserting an element ranked no higher than `x` does not move the first occurrence of `x`:
      the new element lands after it. */
  lemma FirstIndexAfterInsert<T>(s: seq<T>, d: T, rank: T -> int, x: T)
    requires Descending(s, rank) && x in s && rank(d) <= rank(x)
    ensures x in Insert(s, d, rank) && FirstIndex(Insert(s, d, rank), x) == FirstIndex(s, x)
  {
    var j := FirstIndex(s, x);
    var t := Insert(s, d, rank);
    InsertKeepsPrefix(s, d, rank, j);
    assert t[j] == t[..j + 1][j] == s[..j + 1][j] == x;
    assert t[..j] == t[..j + 1][..j] == s[..j + 1][..j] == s[..j];
    FirstIndexUnique(t, x, j);
  }

  /** Inserting an element ranked no higher than `x` does not change whether `x` is among the
      first `n`. */
  lemma InsertBelowKeepsMembership<T>(s: seq<T>, d: T, rank: T -> int, x: T, n: int)
    requires Descending(s, rank) && x in s && rank(d) <= rank(x)
    ensures x in Take(Insert(s, d, rank), n) <==> x in Take(s, n)
  {
    FirstIndexAfterInsert(s, d, rank, x);
    InTake(s, x, n);
    InTake(Insert(s, d, rank), x, n);
  }

  lemma {:induction false} FirstIndexUnique<T>(s: seq<T>, x: T, j: nat)
    requires j < |s| && s[j] == x && x !in s[..j]
    ensures FirstIndex(s, x) == j
  {
    if j > 0 {
      assert s[0] == s[..j][0];
      assert s[1..][..j - 1] == s[..j][1..];
      FirstIndexUnique(s[1..], x, j - 1);
    }
  }

  /** A prefix of a descending sequence is descending and holds some of its elements. */
  lemma TakeOfDescending<T>(s: seq<T>, rank: T -> int, n: int)
    requires Descending(s, rank)
    ensures Descending(Take(s, n), rank)
    ensures multiset(Take(s, n)) <= multiset(s)
  {
    var t := Take(s, n);
    assert s == t + s[|t|..];
  }

  /** Appending an element ranked no higher than `x` and sorting again does not change whether
      `x` is among the first `n`. */
  lemma SnocBelowKeepsMembership<T>(xs: seq<T>, d: T, rank: T -> int, x: T, n: int)
    requires x in xs && rank(d) <= rank(x)
    ensures x in Take(Sort(xs + [d], rank), n) <==> x in Take(Sort(xs, rank), n)
  {
    SortSnoc(xs, d, rank);
    SortDescending(xs, rank);
    SortMembers(xs, rank, x);
    InsertBelowKeepsMembership(Sort(xs, rank), d, rank, x, n);
  }

  lemma AppendOneBelow<T>(xs: seq<T>, init: seq<T>, last: T, rank: T -> int, x: T, n: int)
    requires x in xs && rank(last) <= rank(x)
    ensures x in Take(Sort(xs + (init + [last]), rank), n) <==> x in Take(Sort(xs + init, rank), n)
  {
    var zs := xs + init;
    assert x in zs;
    assert xs + (init + [last]) == zs + [last];
    SnocBelowKeepsMembership(zs, last, rank, x, n);
  }

  /** Appending elements that all rank no higher than `x` and sorting again does not change
      whether `x` is among the first `n`. */
  lemma {:induction false} AppendBelowKeepsMembership<T>(xs: seq<T>, ys: seq<T>, rank: T -> int, x: T, n: int)
    requires x in xs
    requires forall i :: 0 <= i < |ys| ==> rank(ys[i]) <= rank(x)
    ensures x in Take(Sort(xs + ys, rank), n) <==> x in Take(Sort(xs, rank), n)
  {
    if |ys| > 0 {
      var init, last := ys[..|ys| - 1], ys[|ys| - 1];
      assert ys == init + [last];
      assert forall i :: 0 <= i < |init| ==> rank(init[i]) <= rank(x);
      AppendBelowKeepsMembership(xs, init, rank, x, n);
      AppendOneBelow(xs, init, last, rank, x, n);
    } else {
      assert xs + ys == xs;
    }
  }
}

=== FILE: sweepfinding.dfy ===
/** Two concrete runs of the migration sweep with the Murmur-based algorithm, one-unit peer ids
    and the one-unit key "k", showing where the sweep as written and the sweep ranked by peer hash
    part ways. */
module SweepFinding {
  import opened Wrappers
  import opened Utf16
  import opened Peers
  import opened StableSort
  import KeyHashing
  import PeersRegistry

  const KeyK: Text := [0x6b]

  /** The local peer "b", and "a", "c", "g" as built by the factory. */
  const LocalB := Peer([0x62], 0x9d5c22ef, Local)
  const LocalA := Peer([0x61], 0x4d50edf3, Local)
  const RemoteA := Peer([0x61], 0x4d50edf3, Remote)
  const RemoteC := Peer([0x63], 0x383b7ce8, Remote)
  const RemoteG := Peer([0x67], 0x528f75db, Remote)

  const Endpoint0 := Endpoint("http", "10.0.0.1", 5001)

  /** One cached entry under "k". */
  const StoreK: Store := map[PeerKey(KeyK) := CacheValue([0x01], 0)]

  /** The ranks of these peers for "k": "a" first, then "b", "c", "g". */
  lemma RanksForK()
    ensures PeersRegistry.KeyRank(KeyHashing.Murmur, KeyK, RemoteA) == 4243696875
    ensures PeersRegistry.KeyRank(KeyHashing.Murmur, KeyK, LocalA) == 4243696875
    ensures PeersRegistry.KeyRank(KeyHashing.Murmur, KeyK, LocalB) == 4201545031
    ensures PeersRegistry.KeyRank(KeyHashing.Murmur, KeyK, RemoteC) == 3976460584
    ensures PeersRegistry.KeyRank(KeyHashing.Murmur, KeyK, RemoteG) == 1141598483
  {
    KeyHashing.OneUnitHashes();
    assert KeyHashing.CombinedHash(0x4d50edf3, 0xa11d6b29) == 4243696875;
    assert KeyHashing.CombinedHash(0x9d5c22ef, 0xa11d6b29) == 4201545031;
    assert KeyHashing.CombinedHash(0x383b7ce8, 0xa11d6b29) == 3976460584;
    assert KeyHashing.CombinedHash(0x528f75db, 0xa11d6b29) == 1141598483;
  }

  /** The peers above are what the factory builds for their ids. */
  lemma PeersAreBuilt()
    ensures PeersRegistry.Created(KeyHashing.Murmur, PeersRegistry.Arrival(PeerDescription([0x61], Endpoint0, Remote), None)) == Success(RemoteA)
    ensures PeersRegistry.Created(KeyHashing.Murmur, PeersRegistry.Arrival(PeerDescription([0x67], Endpoint0, Remote), None)) == Success(RemoteG)
    ensures PeersRegistry.Valid(KeyHashing.Murmur, PeersRegistry.Registry([LocalB], Some(LocalB)))
    ensures PeersRegistry.Valid(KeyHashing.Murmur, PeersRegistry.Registry([RemoteC, LocalA], Some(LocalA)))
  {
    KeyHashing.OneUnitHashes();
  }

  /** Two peers sort by descending rank, the earlier one first on a tie. */
  lemma SortTwo(x: Peer, y: Peer, rank: Peer -> int)
    ensures Sort([x, y], rank) == if rank(x) >= rank(y) then [x, y] else [y, x]
  {
    assert [x, y][..1] == [x];
    assert Sort([x], rank) == [x] by {
      assert [x][..0] == [];
    }
  }

  /** One arrival whose creation succeeds yields exactly the peer built for it. */
  lemma OneCreated(alg: KeyHashing.Algorithm, desc: PeerDescription, newcomer: Peer)
    requires PeersRegistry.Created(alg, PeersRegistry.Arrival(desc, None)) == Success(newcomer)
    ensures PeersRegistry.CreateAll(alg, [PeersRegistry.Arrival(desc, None)]) == Success([newcomer])
  {
    var arrivals := [PeersRegistry.Arrival(desc, None)];
    assert arrivals[1..] == [];
    assert PeersRegistry.CreateAll(alg, arrivals[1..]) == Success([]);
    assert [newcomer] + [] == [newcomer];
  }

  /** A single successful arrival appends the one peer built for it, and a cached key survives the
      sweep exactly when the local peer keeps it among the grown snapshot. */
  lemma OneArrival(alg: KeyHashing.Algorithm, reg: PeersRegistry.Registry, store: Store, desc: PeerDescription, newcomer: Peer, peers: seq<Peer>, key: Text, ranking: PeersRegistry.SweepRanking)
    requires PeersRegistry.Created(alg, PeersRegistry.Arrival(desc, None)) == Success(newcomer)
    requires reg.localPeer.Some? && PeerKey(key) in store
    requires peers == reg.peers + [newcomer]
    ensures var out := PeersRegistry.OnPeersDiscovered(alg, reg, store, [PeersRegistry.Arrival(desc, None)], 1, ranking);
      && out.thrown.None? && out.reg == PeersRegistry.Registry(peers, reg.localPeer)
      && (PeerKey(key) in out.store <==> PeersRegistry.Kept(alg, ranking, peers, reg.localPeer.value, key, 1))
  {
    var arrivals := [PeersRegistry.Arrival(desc, None)];
    OneCreated(alg, desc, newcomer);
    var out := PeersRegistry.OnPeersDiscovered(alg, reg, store, arrivals, 1, ranking);
    assert out.reg.peers == peers;
    assert out.store == PeersRegistry.Sweep(alg, store, ranking, peers, reg.localPeer.value, 1);
  }

  /** With one replica per key, the sweep as written keeps a key exactly when the local peer heads
      the snapshot. */
  lemma KeptAtOne(alg: KeyHashing.Algorithm, peers: seq<Peer>, local: Peer, key: Text)
    requires |peers| > 0
    ensures PeersRegistry.Kept(alg, PeersRegistry.AsWritten, peers, local, key, 1) <==> peers[0] == local
  {
    PeersRegistry.AsWrittenIgnoresKey(alg, peers, local, key, 1);
    assert Take(peers, 1) == [peers[0]];
  }

  /** The key is never migrated, for any algorithm: the local peer is the only peer and holds
      `key`; a newcomer that outranks it for `key` arrives with a replication factor of 1.
      Afterwards the newcomer alone is the replica for `key`, yet the sweep as written keeps the
      entry because the local peer is still first in the snapshot. Ranked by peer hash, the sweep
      evicts it. */
  lemma KeepsMigratedKey(alg: KeyHashing.Algorithm, local: Peer, desc: PeerDescription, newcomer: Peer, key: Text, store: Store)
    requires PeersRegistry.Created(alg, PeersRegistry.Arrival(desc, None)) == Success(newcomer)
    requires local.kind == Local && PeerKey(key) in store
    requires PeersRegistry.KeyRank(alg, key, local) < PeersRegistry.KeyRank(alg, key, newcomer)
    ensures var reg := PeersRegistry.Registry([local], Some(local));
      var arrivals := [PeersRegistry.Arrival(desc, None)];
      var asWritten := PeersRegistry.OnPeersDiscovered(alg, reg, store, arrivals, 1, PeersRegistry.AsWritten);
      var corrected := PeersRegistry.OnPeersDiscovered(alg, reg, store, arrivals, 1, PeersRegistry.ByPeerHash);
      && PeersRegistry.PeersForKey(alg, reg, key, 1) == Success([local])
      && asWritten.thrown.None? && asWritten.reg.peers == [local, newcomer]
      && PeersRegistry.PeersForKey(alg, asWritten.reg, key, 1) == Success([newcomer])
      && PeerKey(key) in asWritten.store
      && PeerKey(key) !in corrected.store
  {
    var reg := PeersRegistry.Registry([local], Some(local));
    var peers := [local, newcomer];
    assert reg.peers + [newcomer] == peers;
    OneArrival(alg, reg, store, desc, newcomer, peers, key, PeersRegistry.AsWritten);
    OneArrival(alg, reg, store, desc, newcomer, peers, key, PeersRegistry.ByPeerHash);
    NewcomerOutranks(alg, local, newcomer, key);
    KeptAtOne(alg, peers, local, key);
  }

  /** The replicas before and after, and the decision ranked by peer hash, when the newcomer
      outranks the only peer. */
  lemma NewcomerOutranks(alg: KeyHashing.Algorithm, local: Peer, newcomer: Peer, key: Text)
    requires local.kind == Local && newcomer.kind == Remote
    requires PeersRegistry.KeyRank(alg, key, local) < PeersRegistry.KeyRank(alg, key, newcomer)
    ensures PeersRegistry.PeersForKey(alg, PeersRegistry.Registry([local], Some(local)), key, 1) == Success([local])
    ensures PeersRegistry.PeersForKey(alg, PeersRegistry.Registry([local, newcomer], Some(local)), key, 1) == Success([newcomer])
    ensures !PeersRegistry.Kept(alg, PeersRegistry.ByPeerHash, [local, newcomer], local, key, 1)
  {
    var rank := PeersRegistry.RankFor(alg, key);
    assert Sort([local], rank) == [local] by {
      assert [local][..0] == [];
    }
    SortTwo(local, newcomer, rank);
    assert Take([newcomer, local], 1) == [newcomer];
  }

  /** With the Murmur-based algorithm: local peer "b" holds "k" and "a" arrives. */
  lemma AsWrittenKeepsMigratedKey()
    ensures var reg := PeersRegistry.Registry([LocalB], Some(LocalB));
      var arrivals := [PeersRegistry.Arrival(PeerDescription([0x61], Endpoint0, Remote), None)];
      var asWritten := PeersRegistry.OnPeersDiscovered(KeyHashing.Murmur, reg, StoreK, arrivals, 1, PeersRegistry.AsWritten);
      var corrected := PeersRegistry.OnPeersDiscovered(KeyHashing.Murmur, reg, StoreK, arrivals, 1, PeersRegistry.ByPeerHash);
      && PeersRegistry.Valid(KeyHashing.Murmur, reg)
      && PeersRegistry.PeersForKey(KeyHashing.Murmur, reg, KeyK, 1) == Success([LocalB])
      && asWritten.thrown.None?
      && PeersRegistry.PeersForKey(KeyHashing.Murmur, asWritten.reg, KeyK, 1) == Success([RemoteA])
      && PeerKey(KeyK) in asWritten.store
      && PeerKey(KeyK) !in corrected.store
  {
    PeersAreBuilt();
    RanksForK();
    KeepsMigratedKey(KeyHashing.Murmur, LocalB, PeerDescription([0x61], Endpoint0, Remote), RemoteA, KeyK, StoreK);
  }

  /** The key is evicted from its replica, for any algorithm: the snapshot is a remote peer then
      the local peer (the order a second self discovery leaves), the local peer outranks the
      remote one for `key` and holds it, and a newcomer ranked below both arrives with a
      replication factor of 1. The local peer is still the replica for `key`, yet the sweep as
      written evicts the entry because the local peer is not first in the snapshot. Ranked by
      peer hash, the sweep keeps it. */
  lemma EvictsReplica(alg: KeyHashing.Algorithm, remote: Peer, local: Peer, desc: PeerDescription, newcomer: Peer, key: Text, store: Store)
    requires PeersRegistry.Created(alg, PeersRegistry.Arrival(desc, None)) == Success(newcomer)
    requires local.kind == Local && remote.kind == Remote && PeerKey(key) in store
    requires PeersRegistry.KeyRank(alg, key, newcomer) <= PeersRegistry.KeyRank(alg, key, remote)
    requires PeersRegistry.KeyRank(alg, key, remote) < PeersRegistry.KeyRank(alg, key, local)
    ensures var reg := PeersRegistry.Registry([remote, local], Some(local));
      var arrivals := [PeersRegistry.Arrival(desc, None)];
      var asWritten := PeersRegistry.OnPeersDiscovered(alg, reg, store, arrivals, 1, PeersRegistry.AsWritten);
      var corrected := PeersRegistry.OnPeersDiscovered(alg, reg, store, arrivals, 1, PeersRegistry.ByPeerHash);
      && asWritten.thrown.None? && asWritten.reg.peers == [remote, local, newcomer]
      && PeersRegistry.PeersForKey(alg, asWritten.reg, key, 1) == Success([local])
      && PeerKey(key) !in asWritten.store
      && PeerKey(key) in corrected.store
  {
    var reg := PeersRegistry.Registry([remote, local], Some(local));
    var all := [remote, local, newcomer];
    assert reg.peers + [newcomer] == all;
    OneArrival(alg, reg, store, desc, newcomer, all, key, PeersRegistry.AsWritten);
    OneArrival(alg, reg, store, desc, newcomer, all, key, PeersRegistry.ByPeerHash);
    LocalStillFirst(alg, remote, local, newcomer, key);
    KeptAtOne(alg, all, local, key);
  }

  /** The replicas after, and the decision ranked by peer hash, when the local peer outranks both
      the remote peer before it and the newcomer. */
  lemma LocalStillFirst(alg: KeyHashing.Algorithm, remote: Peer, local: Peer, newcomer: Peer, key: Text)
    requires local.kind == Local && remote.kind == Remote
    requires PeersRegistry.KeyRank(alg, key, newcomer) <= PeersRegistry.KeyRank(alg, key, remote)
    requires PeersRegistry.KeyRank(alg, key, remote) < PeersRegistry.KeyRank(alg, key, local)
    ensures PeersRegistry.PeersForKey(alg, PeersRegistry.Registry([remote, local, newcomer], Some(local)), key, 1) == Success([local])
    ensures PeersRegistry.Kept(alg, PeersRegistry.ByPeerHash, [remote, local, newcomer], local, key, 1)
  {
    var rank := PeersRegistry.RankFor(alg, key);
    var all := [remote, local, newcomer];
    assert rank(newcomer) <= rank(remote) < rank(local);
    SortThree(remote, local, newcomer, rank);
    assert Take(Sort(all, rank), 1) == [local];
    assert PeersRegistry.SweepRank(alg, PeersRegistry.ByPeerHash, local, key) == rank;
  }

  /** Three peers where the middle one ranks highest and the last one lowest. */
  lemma SortThree(x: Peer, y: Peer, z: Peer, rank: Peer -> int)
    requires rank(z) <= rank(x) < rank(y)
    ensures Sort([x, y, z], rank) == [y, x, z]
  {
    SortTwo(x, y, rank);
    assert [x, y, z][..2] == [x, y];
    assert [x][1..] == [];
    assert Insert([x], z, rank) == [x] + [z];
    assert [y, x][1..] == [x];
    assert Insert([y, x], z, rank) == [y] + [x, z];
  }

  /** With the Murmur-based algorithm: the snapshot is "c" then local peer "a", and "g" arrives. */
  lemma AsWrittenEvictsReplica()
    ensures var reg := PeersRegistry.Registry([RemoteC, LocalA], Some(LocalA));
      var arrivals := [PeersRegistry.Arrival(PeerDescription([0x67], Endpoint0, Remote), None)];
      var asWritten := PeersRegistry.OnPeersDiscovered(KeyHashing.Murmur, reg, StoreK, arrivals, 1, PeersRegistry.AsWritten);
      var corrected := PeersRegistry.OnPeersDiscovered(KeyHashing.Murmur, reg, StoreK, arrivals, 1, PeersRegistry.ByPeerHash);
      && PeersRegistry.Valid(KeyHashing.Murmur, reg)
      && asWritten.thrown.None?
      && PeersRegistry.PeersForKey(KeyHashing.Murmur, asWritten.reg, KeyK, 1) == Success([LocalA])
      && PeerKey(KeyK) !in asWritten.store
      && PeerKey(KeyK) in corrected.store
  {
    PeersAreBuilt();
    RanksForK();
    EvictsReplica(KeyHashing.Murmur, RemoteC, LocalA, PeerDescription([0x67], Endpoint0, Remote), RemoteG, KeyK, StoreK);
  }
}

=== FILE: utf16.dfy ===
/** Text as the source sees it: a .NET `string` is a sequence of UTF-16 code units, and both the
    hash and every identifier comparison work unit by unit. */
module Utf16 {

  /** One UTF-16 code unit, a .NET `char`. */
  type CodeUnit = bv16

  /** A .NET string: its `Length` is the number of code units. */
  type Text = seq<CodeUnit>
}

=== FILE: wrappers.dfy ===
/** Failure-compatible Option and Result datatypes shared by every module. */
module Wrappers {

  /** The model's stand-in for a nullable reference. */
  datatype Option<+T> = None | Some(value: T) {
    function GetOr(default: T): T {
      match this
      case Some(v) => v
      case None => default
    }
  }

  /** A value or the exception the source would throw instead. */
  datatype Result<+R, +E> = Success(value: R) | Failure(error: E) {
    predicate IsFailure() {
      Failure?
    }

    function PropagateFailure<U>(): Result<U, E>
      requires Failure?
    {
      Failure(error)
    }

    function Extract(): R
      requires Success?
    {
      value
    }
  }
}
